=== FILE: README.md ===
# pretriaje — a verified model of the occupational-health pre-triage core

pretriaje is a web application for mobile occupational-health units. A worker scans a QR code at
the unit, identifies themselves, answers an adaptive health questionnaire on their phone, and the
doctor sees the submitted sessions in a prioritised review queue. This project models the logic
behind that flow in Dafny and proves what it guarantees:

- **Triage engine** (`triage.dfy`, `triage_properties.dfy`): `computeTriage` — five additive,
  tiered risk rules over list-valued answers, the clamp to 0..100, the verde/ambar/rojo level,
  the fixed summary per level, the reasons and exactly three follow-up questions — plus the
  `EXTRA_QUESTIONS_POOL` constant. The engine is also restated as a rule table
  (`Triage.Policy`), and the sequential code is proved equal to it.
- **Answer widget** (`question_renderer.dfy`): single choice, the multi-select toggle with its
  exclusive "Ninguna"/"Ninguno" entries, the free-text "Otro (especificar)" sheet, and which
  options are shown ticked.
- **Wizard** (`wizard.dfy`, `questionnaire.dfy`): the question list built from core, matching
  exposure modules and closing questions; the required-answer check; the walk to the next
  visible question (as a recursive function and as the bounded loop of the page); back
  navigation; and the progress percentage.
- **Doctor's queue** (`panel.dfy`): priority buckets, the stable sort, the search and priority
  filters, and the priority badge.
- **Store** (`store.dfy`, `records.dfy`): the in-memory database — seeding, token rotation,
  session creation, lookup and partial update, listing by campaign, and reports.
- **Session start** (`start_route.dfy`): the token decision tree of `POST /api/session/start`.
- **Identification** (`identification.dfy`): age from the date of birth and the adults-only gate
  on submission.
- **QR display** (`qr_admin.dfy`): the expiry countdown, the link the QR encodes, and the short
  session code.
- **Demo data** (`demo.dfy`): the deterministic DNI generator, the ten demo profiles turned
  into submitted sessions, and the lookup of a demo session by id.
- **Support** (`strings.dfy`, `seqs.dfy`, `answers.dfy`): `Option`, the string operations
  the code uses, decimal numerals (`toString`, `padStart`, `parseInt`), `find`/`findIndex`,
  `filter`, `some`, and JavaScript truthiness and `.includes` on answer values.

Clocks and random UUIDs are parameters (`now` in milliseconds, `uuid`). Answers are
`Text(string)` or `Multi(list)`; a missing key is an absent answer.

Two consequences of the code are worth stating:

- A missing field defaults to `[]`, and an empty list holds no "none" entry, so every base rule
  fires on it. The empty answer map therefore scores 60 and is `rojo`, with the reason
  "Problemas vasculares" and the three filler questions (`TriageProperties.EmptyAnswers`). Any
  map without the five scored fields gets the same score, level and reasons; its questions are
  the three fillers unless its mental-health answer is set and does not include "No", which puts
  the treatment question first (`TriageProperties.WithoutScoredFields`).
- `computeTriage` has no pain-level, red-flag, exposure or "happening now" rule. Those answers
  are stored but never scored, and the model scores none of them.

## Model

| member | source | states |
|---|---|---|
| Triage.ComputeTriage | src/lib/triage.ts:3-104 | The score lies in 0..100. The level is rojo exactly from 60, ambar exactly from 30 below 60, verde exactly below 30. The summary is the fixed text of that level. There are at most four reasons and exactly three questions. |
| Triage.FamilyStepFollowsRule | src/lib/triage.ts:9-17 | The family-history block adds 10 when the list holds neither "Ninguno conocido" nor "No lo sabe". It adds 20 more, with its reason, on "Muerte súbita". This is exactly the family row of the rule table. |
| Triage.PersonalStepFollowsRule | src/lib/triage.ts:19-27 | The personal-history block adds 20 unless "No" is present. It adds 20 more, with its reason, on cardiac or respiratory disease. This is the personal row of the table. |
| Triage.VascularStepFollowsRule | src/lib/triage.ts:29-34 | The vascular block adds 15 and its reason unless "No" is present. This is the vascular row of the table. |
| Triage.MedicationStepFollowsRule | src/lib/triage.ts:36-44 | The medication block adds 10 unless "No" is present. It adds 10 more, with its reason, on anticoagulants or antihypertensives. This is the medication row of the table. |
| Triage.HabitsStepFollowsRule | src/lib/triage.ts:46-50 | The habits block adds 5 unless "No" is present, and never gives a reason. This is the habits row of the table. |
| Triage.AccumulateFollowsPolicy | src/lib/triage.ts:9-50 | The five sequential blocks compute exactly the rule table's total and its reasons in table order. |
| Triage.ComputeTriageFollowsPolicy | src/lib/triage.ts:9-100 | The score is the table total clamped to 100, and that total never exceeds 110. The reasons are the table's reasons; the slice to four never cuts any. |
| TriageProperties.EmptyAnswers | src/lib/triage.ts:10-95 | The empty answer map scores 60 and is rojo, with the single reason "Problemas vasculares" and the three fillers, because every absent field reads as an empty list. |
| TriageProperties.WithoutScoredFields | src/lib/triage.ts:10-95 | Answers that leave the family, personal, vascular, medication and habits fields unset score 60, are rojo with the single reason "Problemas vasculares", and get the three fillers, or the treatment question and the first two fillers when the mental-health answer is set and does not include "No". |
| TriageProperties.AllSentinels | src/lib/triage.ts:10-95 | Answering every scored field, and mental health, with its "none" entry gives score 0, verde, no reasons and the three fillers. |
| TriageProperties.UpperClampReachable | src/lib/triage.ts:9-53 | Full escalation of all five rules totals 110, so the clamp to 100 is reached. |
| TriageProperties.TextValueScoresNothing | src/lib/triage.ts:10-48 | A non-empty plain-string value in a scored field gives that rule no score and no reason, because of the list guard. |
| TriageProperties.EmptyTextIsMissing | src/lib/triage.ts:10-47 | An empty-string answer gives the same analysis as a missing one: the empty string is falsy, so the `[]` default applies. |
| TriageProperties.FamilyEscalation | src/lib/triage.ts:10-17 | The family escalation happens exactly on a list with no "none" entry that holds the sudden-death marker. |
| TriageProperties.PersonalEscalation | src/lib/triage.ts:20-27 | The personal escalation happens exactly on a list without "No" that holds cardiac or respiratory disease. |
| TriageProperties.MedicationEscalation | src/lib/triage.ts:37-44 | The medication escalation happens exactly on a list without "No" that holds anticoagulants or antihypertensives. |
| TriageProperties.ReasonsAsOptions | src/lib/triage.ts:9-50 | The reasons are the family, personal, vascular and medication reasons, in that order, each present or absent on its own. |
| TriageProperties.ReasonsCharacterised | src/lib/triage.ts:9-50 | Each reason is present exactly when its rule escalated; for vascular, exactly when its base fired. Both directions are stated in terms of the answer lists. |
| TriageProperties.ReasonsInRuleOrder | src/lib/triage.ts:9-100 | The reasons are a subsequence of the four reasons in rule order. |
| TriageProperties.HabitsGiveNoReason | src/lib/triage.ts:46-50 | Changing the habits answer never changes the reasons. |
| TriageProperties.TriggeredCharacterised | src/lib/triage.ts:73-90 | Each suggested question (cardio, INR, smoking, treatment) is triggered exactly when its condition holds, and they come in that order. |
| TriageProperties.AiQuestionsShape | src/lib/triage.ts:73-102 | The questions are the first three triggered ones, or all triggered ones followed by fillers in fixed order up to three. |
| TriageProperties.PolicyScoreMonotone | src/lib/triage.ts:9-50 | If no rule's contribution drops, the total does not drop. |
| TriageProperties.RuleDeltaGrows | src/lib/triage.ts:11-50 | Appending a non-sentinel entry to a list never lowers any rule's contribution. |
| TriageProperties.AddingRiskNeverLowersScore | src/lib/triage.ts:9-53 | Appending an entry that is not a "none" entry of its field never lowers the final score. |
| TriageProperties.SentinelRemovesContribution | src/lib/triage.ts:9-53 | Appending a field's "none" entry removes that field's whole contribution and nothing else. |
| QuestionRenderer.OtherOpensSheet | src/components/Wizard/QuestionRenderer.tsx:18-25 | Choosing "Otro (especificar)" never changes the value and opens the sheet. The sheet is prefilled exactly when the current value is a custom text. |
| QuestionRenderer.SingleSelectSets | src/components/Wizard/QuestionRenderer.tsx:26-32 | On a non-multi question an ordinary option becomes the whole value, and only it is shown ticked. |
| QuestionRenderer.NonListIsEmptyList | src/components/Wizard/QuestionRenderer.tsx:36-37 | A missing or text value toggles as if it were the empty list. |
| QuestionRenderer.ToggleExclusive | src/components/Wizard/QuestionRenderer.tsx:39-43 | Toggling "Ninguna"/"Ninguno" gives [] if it was selected, else exactly [that entry]. |
| QuestionRenderer.ToggleOrdinary | src/components/Wizard/QuestionRenderer.tsx:45-49 | Toggling any other option removes both exclusive entries and flips that option's membership. Every other entry keeps its membership, and the kept entries keep their order. Toggling a present option off drops every copy of it and of the exclusive entries and keeps every other entry as often as it occurred. |
| QuestionRenderer.ToggleTwice | src/components/Wizard/QuestionRenderer.tsx:45-49 | Toggling an absent ordinary option twice restores a list free of exclusive entries. |
| QuestionRenderer.SaveOtherEffect | src/components/Wizard/QuestionRenderer.tsx:52-64 | Saving whitespace-only text changes nothing. Otherwise the sheet closes, and the text is appended on multi (even when already present) or replaces the value. |
| QuestionRenderer.SaveThenReopen | src/components/Wizard/QuestionRenderer.tsx:18-64 | A saved non-option text on a single-answer question is a custom value, and reopening the sheet shows it again. |
| QuestionRenderer.CustomIffNoOptionTicked | src/components/Wizard/QuestionRenderer.tsx:66-76 | A non-empty text value is custom exactly when no option is shown ticked. Lists are never custom. |
| QuestionRenderer.SelectFlipsTick | src/components/Wizard/QuestionRenderer.tsx:18-50 | On a multi question, clicking an ordinary option flips whether it is ticked. |
| Wizard.AddModulesAppends | src/app/wizard/page.tsx:49-54 | The module loop appends the questions of exactly the matching modules, in config order. |
| Wizard.AllQuestionsLayout | src/app/wizard/page.tsx:44-61 | The question list is core, then the matching modules' questions in config order, then the closing questions. |
| Wizard.ModuleIncludedIff | src/app/wizard/page.tsx:47-53 | A module is included exactly when one of its exposures is included in the worker's exposures. A module without the field is never included. |
| Wizard.ExposuresSource | src/app/wizard/page.tsx:47-53 | The exposures are `q1_4_tasks` when truthy. With neither `q1_4_tasks` nor `exposures` truthy, no module is included. |
| Wizard.FindIndex | src/app/wizard/page.tsx:138 | Returns the first position holding the id, or none when no question has it. |
| Wizard.NextVisibleFrom | src/app/wizard/page.tsx:141-157 | The next index is at or after the start and within the list. Every question it skips is hidden, and it lands on a visible question unless it reached the end. |
| Wizard.NextVisibleIndex | src/app/wizard/page.tsx:141-157 | The bounded loop of the page, with its `length + 5` safety cap, finds the same index as the unbounded walk, strictly after the current one. |
| Wizard.HandleNext | src/app/wizard/page.tsx:116-168 | "Next" is ignored without a current question. It is blocked exactly when a required, non-info question is unanswered. At the end it goes to review only when all later questions are hidden. Otherwise it keeps the answers, pushes the current id and moves to the first visible later question. |
| Wizard.HandleBack | src/app/wizard/page.tsx:100-112 | "Back" leaves for identification exactly when the history is empty. Otherwise it pops the last entry and makes it current. |
| Wizard.BackUndoesNext | src/app/wizard/page.tsx:100-168 | Going back right after advancing restores the previous state. |
| Wizard.AnsweredNeverBlocks | src/app/wizard/page.tsx:120-132 | A question with a non-empty answer never blocks. |
| Wizard.ListNeverShows | src/app/wizard/page.tsx:150-153 | A question conditioned on a list-valued answer is never visible, because the comparison is strict equality with a string. |
| Wizard.ProgressRounds | src/app/wizard/page.tsx:182 | The percentage is `100·k/n` rounded half up. It never exceeds 100, reaches 100 exactly when `200k ≥ 199n`, and is 100 at the last question. |
| Wizard.ProgressMonotone | src/app/wizard/page.tsx:182 | Progress never decreases as the position advances. |
| Wizard.ProgressOf | src/app/wizard/page.tsx:75-78 | The shown progress is at most 100, and exactly 100 on the last question. |
| Wizard.Start | src/app/wizard/page.tsx:35-40 | The wizard opens on the first core question, and "back" from there leaves for identification. |
| Panel.GetPrio | src/app/panel/page.tsx:31 | Scores from 5 map to bucket 3, from 3 below 5 to bucket 2, and the rest to bucket 1. |
| Panel.GetPrioMonotone | src/app/panel/page.tsx:31 | A higher score never lands in a lower bucket. |
| Panel.FiltersPartition | src/app/panel/page.tsx:63-68 | Every score passes exactly one of the high, medium and normal filters: the filter of its bucket. |
| Panel.BadgeAgreesWithBucket | src/app/panel/page.tsx:73-76 | The ALTA, MEDIA and NORMAL badges agree with buckets 3, 2 and 1 and with the three filters. |
| Panel.FilterQueue | src/app/panel/page.tsx:51-71 | A session is shown exactly when it matches the lowercased search term (by worker id or name answer) and passes the priority filter, as many times as it is listed. Order is kept, and "all" with no search shows the list unchanged. |
| Panel.SearchIgnoresCase | src/app/panel/page.tsx:54-61 | Two search terms that lowercase alike show the same rows. |
| Panel.Insert | src/app/panel/page.tsx:30-36 | Inserting keeps a sorted queue sorted and adds exactly that session. |
| Panel.InsertPoint | src/app/panel/page.tsx:30-36 | The insertion point is the first entry the new session strictly precedes, or the end: every entry before it compares equal or ahead. |
| Panel.InsertAtPoint | src/app/panel/page.tsx:30-36 | Inserting splices the session in at its insertion point and moves nothing else, so it lands after every entry with an equal key. |
| Panel.InsertKeepsKeyOrder | src/app/panel/page.tsx:30-36 | For any key, inserting into a sorted queue keeps the entries of that key in order and adds the new session after them if it has that key. |
| Panel.SortQueue | src/app/panel/page.tsx:30-36 | The sorted queue is a permutation of the input, with buckets non-increasing and, within a bucket, submission times non-increasing. |
| Panel.SortQueueStable | src/app/panel/page.tsx:30-36 | The sort is stable: for every bucket and submission time, the sessions with that key come out in the order they went in, whatever the input. |
| Panel.SortKeepsSorted | src/app/panel/page.tsx:30-36 | A queue already in order is returned unchanged. |
| Panel.InsertAtEnd | src/app/panel/page.tsx:30-36 | A session that no entry strictly follows goes last. |
| Store.Seed | src/lib/db.ts:13-29 | A fresh store holds exactly the demo campaign with token "token123" and a 24-hour expiry, and no sessions or reports. |
| Store.SeedKnowsDemo | src/lib/db.ts:13-29 | In a fresh store, the demo campaign is found by id and by token, and it has no sessions. |
| Store.GetCampaign | src/lib/db.ts:80-82 | Finds the first stored campaign with that id, or none exactly when no campaign has it. |
| Store.GetCampaignByToken | src/lib/db.ts:76-78 | Finds the first campaign whose current token matches, or none exactly when none matches. |
| Store.TokenOf | src/lib/db.ts:35 | The new token is the first eight characters of the UUID. |
| Store.RotateCampaignToken | src/lib/db.ts:31-41 | An unknown id gives no token and an unchanged store. A known id gets the new token, returned, and an expiry of now + 12 h; nothing else changes. |
| Store.RotateThenGet | src/lib/db.ts:31-41 | After rotation, looking the campaign up gives it with the returned token and the new expiry. |
| Store.CreateSession | src/lib/db.ts:44-57 | Appends exactly one in-progress session with the given id and campaign, score 0, no flags and no answers, and returns it. |
| Store.GetSession | src/lib/db.ts:59-61 | Finds the first stored session with that id, or none exactly when none has it. |
| Store.UpdateMergesFoundSession | src/lib/db.ts:59-69 | An update succeeds exactly when the lookup finds the id, and it merges into the very session the lookup returns, stamped with now. |
| Store.CreateThenGet | src/lib/db.ts:44-61 | A created session is found by its id. |
| Store.UpdateSession | src/lib/db.ts:63-69 | An unknown id changes nothing. A known id merges the supplied fields over the stored ones, keeps the rest and stamps last activity with now. No other session changes. |
| Store.UpdateIdempotent | src/lib/db.ts:63-69 | For an update that does not supply an id, applying it twice at the same time equals applying it once; an update that renames the session finds nothing the second time. |
| Store.GetSessionsByCampaign | src/lib/db.ts:71-73 | Returns exactly the campaign's sessions, each as many times as it is stored, in insertion order. |
| Store.CreateThenList | src/lib/db.ts:44-73 | A new session appears at the end of its campaign's list and in no other campaign's. |
| Store.CreateReport | src/lib/db.ts:85-87 | Appends the report and changes nothing else. |
| Store.GetReports | src/lib/db.ts:89-91 | Returns exactly the campaign's reports, each as many times as it is stored, in insertion order. |
| Store.CreateThenGetReports | src/lib/db.ts:85-91 | A new report appears at the end of its campaign's reports. |
| StartRoute.StartSession | src/app/api/session/start/route.ts:9-48 | On success, exactly one in-progress session with the given id and campaign is appended and its id returned. On any rejection the store is unchanged and the status matches the reason. |
| StartRoute.StatelessAccepts | src/app/api/session/start/route.ts:12-14 | A decoded token naming this campaign with a future expiry opens a session, whatever the store holds. |
| StartRoute.ExpiredTokenRefused | src/app/api/session/start/route.ts:15-16 | A decoded token whose expiry has passed is refused with 403, whatever campaign it names. |
| StartRoute.FallsThroughToStore | src/app/api/session/start/route.ts:11-23 | Undecodable tokens, tokens without an expiry and live tokens of another campaign are decided by the store checks alone. |
| StartRoute.UnknownCampaignNotFound | src/app/api/session/start/route.ts:24-29 | In the store checks an unknown campaign is a 404. |
| StartRoute.WrongTokenRefused | src/app/api/session/start/route.ts:31-35 | A token that is neither the current one nor "token123" is a 403. |
| StartRoute.StoredExpiryRefused | src/app/api/session/start/route.ts:38-40 | A campaign whose stored expiry is before now gives 403. |
| StartRoute.StoreAccepts | src/app/api/session/start/route.ts:22-47 | In the store checks, an existing campaign with its current token or "token123" and a stored expiry that is absent or not before now opens a session; with the three refusals this covers every outcome. |
| StartRoute.RotatedTokenOpens | src/app/api/session/start/route.ts:31-40 | After rotation the returned token opens sessions until its 12-hour expiry, and any other token except "token123" is refused. |
| StartRoute.DemoTokenAfterRotation | src/app/api/session/start/route.ts:31-40 | After a rotation, "token123" still opens sessions of an existing campaign until the rotated token's 12-hour expiry, and from then on gets 403 for the expired stored token. |
| StartRoute.SeedOpensDemo | src/app/api/session/start/route.ts:24-46 | A fresh store opens demo-campaign sessions with "token123" for 24 hours. |
| Identification.AgeCountsBirthdays | src/app/identificacion/page.tsx:35-39 | The age is at least n exactly when the n-th birthday is today or earlier: it counts completed years. |
| Identification.EighteenthBirthday | src/app/identificacion/page.tsx:35-43 | On the 18th birthday the age is 18; the day before, it is 17. |
| Identification.HandleSubmit | src/app/identificacion/page.tsx:27-44 | Submission is stopped exactly when a parsed date of birth has its 18th birthday still ahead. With no date, or an unparsable one, no age check blocks. Without a session nothing happens. |
| Identification.AdultSaves | src/app/identificacion/page.tsx:27-46 | With a session and an adult date of birth, submitting saves. |
| QrAdmin.TwoDigits | src/app/admin/qr/page.tsx:63 | Seconds are two digits that read back as the number. |
| QrAdmin.Countdown | src/app/admin/qr/page.tsx:58-63 | "Expirado" is shown exactly when no time is left. |
| QrAdmin.Tick | src/app/admin/qr/page.tsx:51-65 | Without an expiry the shown text stays as it was. With one, "Expirado" is shown exactly when the expiry is not after now. |
| QrAdmin.CountdownReadsBack | src/app/admin/qr/page.tsx:61-63 | The text splits at ':' into unpadded minutes and two-digit seconds (at most 59). These are the whole minutes and seconds left, rounded down to the second. |
| QrAdmin.LastSecondShowsZero | src/app/admin/qr/page.tsx:58-63 | With under a second left, "0:00" is shown rather than "Expirado". |
| QrAdmin.FullUrlQuery | src/app/admin/qr/page.tsx:80 | The link is base + "/start?" + query. The query splits back into the campaign and the token when neither contains '&'; an '&' in the token, which is not escaped, adds fields. |
| QrAdmin.SessionCode | src/app/admin/qr/page.tsx:129 | The code is a prefix of at most eight token characters, or eight dashes when there is no token, followed by "...". |
| QrAdmin.SessionCodeShowsRotatedToken | src/app/admin/qr/page.tsx:129 | A rotated token is shown in full before the ellipsis. |
| Demo.GenerateDni | src/lib/demo.ts:5-11 | The DNI is the zero-padded numeral of 12345678 + 100·seed, followed by the control letter of that same number, read back with `parseInt`. |
| Demo.FlagsOf | src/lib/demo.ts:276 | There is one red flag per reason, in order, with title and detail both that reason. |
| Demo.GenerateDemoSessions | src/lib/demo.ts:222-223 | There is one session per demo profile: ten. |
| Demo.AnswersOfKeys | src/lib/demo.ts:227-254 | The answer map carries the profile's name and its lists under the keys the triage engine reads. |
| Demo.SessionOfFields | src/lib/demo.ts:256-278 | The session is submitted, not reviewed, in the given campaign, with id and worker id "ID-"+(1000+i). It is submitted 5·i minutes before now, and its score, triage and flags mirror computeTriage on its answers. |
| Demo.GeneratedSession | src/lib/demo.ts:222-279 | The i-th generated session has those fields for the i-th profile. |
| Demo.NameSplit | src/lib/demo.ts:229-230 | The first name has no space. With a space in the name, first name + " " + last name rebuilds it; without one, the first name is the whole name and the last name is empty. |
| Demo.GetDemoSession | src/lib/demo.ts:282-294 | Nothing is returned unless the id starts with "ID-1" and has seven characters. |
| Demo.DemoIdShape | src/lib/demo.ts:225 | Demo ids have seven characters, start with "ID-1" and parse back to 1000 + i. |
| Demo.DemoIdParse | src/lib/demo.ts:284-287 | An id passing the guard whose number is in 1000..1009 is exactly the demo id of that offset. |
| Demo.GetDemoFindsEach | src/lib/demo.ts:286-292 | The lookup of the i-th demo id returns the i-th generated session. |
| Demo.GetDemoReturnsAsked | src/lib/demo.ts:282-294 | A session returned by the lookup has the id asked for. |
| Demo.GetDemoIff | src/lib/demo.ts:282-294 | The lookup succeeds exactly on the ten demo ids. |
| Demo.LastProfileIsGreen | src/lib/demo.ts:201-219 | The last profile, whose every scored list holds only its "none" entry, triages to 0 and verde with no flags. |
| Strings.TrimEmptyIffBlank | src/components/Wizard/QuestionRenderer.tsx:53 | The trimmed text is empty exactly when the text is all whitespace. |
| Strings.JoinSplit | src/lib/demo.ts:229-230 | Splitting a name on spaces and joining it again gives the name back. |
| Decimal.ParseNatToString | src/lib/demo.ts:7-9 | `parseInt` of a number's decimal text gives the number back. |

## Left out

- Identification: the submit button's disabled state (`loading || !dni`, src/app/identificacion/page.tsx:146) is rendering, not logic; the model starts at the submit handler.
- I/O and framework code: HTTP handling, JSON bodies, React state and effects, `alert`,
  `confirm`, timers and polling, the clipboard, navigation and `sessionStorage`. Each handler is
  modelled as a function from the state it reads to the state or outcome it produces.
- The outer `try`/`catch` of the start route, which answers 500 on an unexpected exception;
  exceptions are not modelled.
- `crypto.randomUUID` and `Date.now()`: ids and the current time (in milliseconds) are
  parameters. ISO-8601 timestamps are integer milliseconds.
- The base64url and JSON decoding of start tokens: the decoded `{c, e}` arrives as an optional
  record, `None` when decoding fails. `e` is taken to be a number when present.
- Date parsing and time zones behind `new Date(dob)`: the date of birth arrives as an
  empty, unparsable or parsed calendar date, and "today" as a calendar date.
- `toLowerCase`: the model lowercases ASCII letters only.
- Floating point: `Math.round` and `Math.floor` are computed exactly on integers and rationals.
- Answer values other than strings and string lists (numbers, booleans, `null`); in particular
  `q_age` of the demo profiles is stored as its decimal text.
- `Panel.SortQueue`: requires every session to carry a submission time. The queue is fetched
  with `status=SUBMITTED`, and the comparator on a missing time yields `NaN`, which is not a
  consistent order.
- `Store.UpdateSession`: an explicitly supplied `undefined` clears a field; it is modelled as
  `Some(None)` in the update record.
- `Records.Report`: the free-form summary and HTML body of a report are not modelled.
- `Demo.SessionOf`: the demo sessions' `created_at` is not a field of the session record;
  `startedAt` and `lastActivityAt` are set to now.
- The "Opcional" marker of optional questions and every other piece of presentation.
- `Triage.ExtraQuestionsPool`: only the constant; the replenishment of follow-up questions
  that draws from it belongs to the review screen, which is not part of this model.
- PDF report generation, the review, start and confirmation pages, and the demo-seed and
  admin-QR API routes (a thin wrapper over `rotateCampaignToken` and `getCampaign`).
- The global singleton of the store and the development-server caching around it.

=== FILE: answers.dfy ===
/**
 Answer values as the questionnaire stores them, with the JavaScript semantics the
 application relies on when it reads them back: truthiness, `||` defaults and `.includes`.
 */
module Answers {
  import opened Wrappers
  import Strings

  /** The value stored for one question: text (free text or a single choice) or a list (multi-select). */
  datatype Answer = Text(text: string) | Multi(items: seq<string>)

  /** Question id to value; an unanswered question has no key. */
  type AnswerMap = map<string, Answer>

  /** JavaScript truthiness of a stored value: only the empty string is falsy, every list is truthy. */
  predicate Truthy(a: Answer)
  {
    a.Multi? || a.text != ""
  }

  /** `value.includes(x)`: list membership on a list, substring search on a string. */
  predicate Includes(a: Answer, x: string)
  {
    match a
    case Multi(xs) => x in xs
    case Text(s) => Strings.Contains(s, x)
  }

  /** `answers[k]`; a missing key reads as `undefined`. */
  function Get(answers: AnswerMap, k: string): Option<Answer>
  {
    if k in answers then Some(answers[k]) else None
  }

  /** `answers[k] || []`: a missing or falsy value becomes the empty list. */
  function OrEmptyList(answers: AnswerMap, k: string): Answer
  {
    if k in answers && Truthy(answers[k]) then answers[k] else Multi([])
  }

  /** The list `value` holds, or `[]` when it is not a list (`Array.isArray(v) ? v : []`). */
  function ListOrEmpty(value: Option<Answer>): seq<string>
  {
    if value.Some? && value.value.Multi? then value.value.items else []
  }

  /** `String(value)`: a list prints as its elements joined by commas. */
  function AsString(a: Answer): string
  {
    match a
    case Text(s) => s
    case Multi(xs) => Strings.Join(xs, ',')
  }
}

=== FILE: demo.dfy ===
/**
 The demo fixtures: ten worker profiles turned into submitted sessions with deterministic ids,
 DNIs and submission times, each scored by the triage engine.
 */
module Demo {
  import opened Wrappers
  import opened Answers
  import opened Triage
  import opened Records
  import Strings
  import Decimal
  import Store
  import TriageProperties

  /** A worker profile of the demo data set. */
  datatype Profile = Profile(
    name: string, age: string, role: string, shift: seq<string>, pain: string,
    redFlag: string, redFlagNow: string, historyFam: seq<string>, historyPers: seq<string>,
    surgeries: seq<string>, meds: seq<string>, allergies: seq<string>, vascular: seq<string>,
    habits: seq<string>, mental: seq<string>, additional: string, additionalDesc: string,
    exposure: string)

  const DemoProfiles: seq<Profile> := [
    Profile(
      "Carlos Sanchez Ruiz", "56", "Conducción", ["Noche", "Rotatorio"], "8", "Dolor en el pecho", "Sí",
      ["Cardiopatías / Infarto / Ictus"], ["Enfermedad cardiaca", "Hipertensión"], ["Sí, cirugía mayor"], ["Anticoagulantes", "Antihipertensivos"],
      ["No"], ["Otros"], ["Fumador/a"], ["No"],
      "Sí", "Siento presión en el pecho al subir escaleras", "Conducción"),
    Profile(
      "Maria Garcia Lopez", "62", "Limpieza / mantenimiento", ["Mañana"], "9", "Dificultad respiratoria", "Sí",
      ["Cáncer"], ["Enfermedad respiratoria"], ["No"], ["Otros", "Suplementos"],
      ["Polvo / Ácaros (Otros)"], ["Varices"], ["No"], ["Depresión"],
      "No", "", "Químicos"),
    Profile(
      "Antonio Diaz Perez", "59", "Trabajo con maquinaria / industria", ["Tarde"], "7", "Mareo intenso", "Sí",
      ["Muerte súbita (<50 años)"], ["No"], ["Sí, ingreso hospitalario sin cirugía"], ["No"],
      ["No"], ["No"], ["Consumo habitual de alcohol", "Fumador/a"], ["No"],
      "No", "", "Maquinaria"),
    Profile(
      "Ana Martinez Fernandez", "50", "Administración", ["Mañana"], "5", "Ninguna", "No",
      ["Diabetes"], ["Diabetes", "Hipertensión"], ["Sí, cirugía menor"], ["Antihipertensivos"],
      ["Medicamentos"], ["Insuficiencia venosa"], ["Exfumador/a"], ["Ansiedad"],
      "Sí", "Control regular con endocrino", "Pantallas"),
    Profile(
      "Jose Gonzalez Martin", "38", "Trabajo físico / esfuerzo manual", ["Rotatorio"], "6", "Ninguna", "No",
      ["No lo sabe"], ["Trastorno psicológico"], ["No"], ["Antidepresivos / Ansiolíticos"],
      ["No"], ["No"], ["Fumador/a"], ["Ansiedad", "Depresión"],
      "No", "", "Esfuerzo Físico"),
    Profile(
      "Elena Fernandez Gomez", "41", "Sanidad / cuidados", ["Noche"], "4", "Ninguna", "No",
      ["Enfermedad neurológica"], ["No"], ["Sí, cirugía menor"], ["Suplementos"],
      ["Alimentos"], ["Varices"], ["No"], ["Prefiere no responder"],
      "No", "", "Biológico"),
    Profile(
      "Laura Rodriguez Santos", "24", "Atención al público", ["Tarde"], "2", "Ninguna", "No",
      ["Ninguno conocido"], ["No"], ["No"], ["Anticonceptivos hormonales"],
      ["No"], ["No"], ["No"], ["No"],
      "No", "", "Pantallas"),
    Profile(
      "Miguel Gomez Romero", "29", "Educación", ["Mañana"], "0", "Ninguna", "No",
      ["Ninguno conocido"], ["No"], ["No"], ["No"],
      ["Primavera / Polen (Otros)"], ["No"], ["No"], ["No"],
      "No", "", "Voz"),
    Profile(
      "Lucia Diaz Torres", "33", "Trabajo de oficina / pantallas", ["Mañana"], "1", "Ninguna", "No",
      ["Ninguno conocido"], ["No"], ["Sí, cirugía menor"], ["No"],
      ["No"], ["No"], ["No"], ["No"],
      "No", "", "Pantallas"),
    Profile(
      "Juan Perez Castillo", "27", "Otro puesto de trabajo", ["Mañana"], "0", "Ninguna", "No",
      ["Ninguno conocido"], ["No"], ["No"], ["No"],
      ["No"], ["No"], ["No"], ["No"],
      "No", "", "Ninguna")
  ]

  /** The check letters of the Spanish DNI, indexed by the number modulo 23. */
  const DniLetters := "TRWAGMYFPDXBNJZSQVHLCKE"

  /** Five minutes between consecutive demo submissions. */
  const SubmitGapMs := 1000 * 60 * 5

  /** The DNI number of a seed: 12345678 plus a hundred per seed step. */
  function DniNumber(seed: nat): nat
  {
    12345678 + seed * 100
  }

  /**
   `generateDNI`: the number zero-padded to eight digits, then the letter the padded text
   parses back to. The letter is the one for the number itself: padding does not change it.
   */
  function GenerateDni(seed: nat): (dni: string)
    ensures dni == Decimal.PadStart(Decimal.NatToString(DniNumber(seed)), 8, '0') + [DniLetters[DniNumber(seed) % 23]]
  {
    var digits := Decimal.NatToString(DniNumber(seed));
    var num := Decimal.PadStart(digits, 8, '0');
    Decimal.ParseNatToString(DniNumber(seed));
    Decimal.ParseLeadingZeros(|num| - |digits|, digits);
    assert num == Decimal.Repeat('0', |num| - |digits|) + digits;
    Decimal.ParseIntNumeral(num);
    var value := Decimal.ParseIntPrefix(num).value;
    num + [DniLetters[value % 23]]
  }

  /** `ID-` followed by 1000 + i. */
  function DemoId(i: nat): string
  {
    "ID-" + Decimal.NatToString(1000 + i)
  }

  /** The first space-separated word of a name. */
  function FirstName(name: string): string
  {
    Strings.Split(name, ' ')[0]
  }

  /** The remaining words of a name, joined again by single spaces. */
  function LastName(name: string): string
  {
    Strings.Join(Strings.Split(name, ' ')[1..], ' ')
  }

  /** The stored answers of the i-th profile: who the worker is, the other answers, and the six triage fields. */
  function AnswersOf(p: Profile, i: nat): AnswerMap
  {
    IdentityAnswers(p, i) + OtherAnswers(p) + TriageAnswers(p)
  }

  function IdentityAnswers(p: Profile, i: nat): AnswerMap
  {
    map[
      "name" := Text(p.name),
      "firstname" := Text(FirstName(p.name)),
      "lastname" := Text(LastName(p.name)),
      "dni" := Text(GenerateDni(i)),
      "q_age" := Text(p.age),
      "q_role" := Text(p.role),
      "q_shift" := Multi(p.shift)
    ]
  }

  function OtherAnswers(p: Profile): AnswerMap
  {
    map[
      "q_surgeries" := Multi(p.surgeries),
      "q_allergies_known" := Multi(p.allergies),
      "q_additional_info" := Text(p.additional),
      "q_additional_text" := Text(p.additionalDesc),
      "q_fit_now" := Text("Sí"),
      "q_pain_level" := Text(p.pain),
      "q_red_flags" := Multi([p.redFlag]),
      "q_red_flags_now" := Text(p.redFlagNow),
      "q_exposure" := Text(p.exposure)
    ]
  }

  /** The answers under the keys the triage engine reads. */
  function TriageAnswers(p: Profile): AnswerMap
  {
    map[
      FamilyKey := Multi(p.historyFam),
      PersonalKey := Multi(p.historyPers),
      MedicationKey := Multi(p.meds),
      VascularKey := Multi(p.vascular),
      HabitsKey := Multi(p.habits),
      MentalHealthKey := Multi(p.mental)
    ]
  }

  /** The legacy red-flag list: one flag per triage reason, titled and detailed by it. */
  function FlagsOf(reasons: seq<string>): (flags: seq<RedFlag>)
    ensures |flags| == |reasons|
    ensures forall k :: 0 <= k < |reasons| ==> flags[k] == RedFlag(reasons[k], reasons[k])
  {
    seq(|reasons|, k requires 0 <= k < |reasons| => RedFlag(reasons[k], reasons[k]))
  }

  /**
   The session of the i-th profile, submitted i·5 minutes before `now`. The fixture's own
   creation time stands in for the start and activity times.
   */
  function SessionOf(p: Profile, i: nat, campaignId: string, now: int): Session
  {
    var answers := AnswersOf(p, i);
    var t := ComputeTriage(answers);
    Session(
      DemoId(i), campaignId, Submitted, now, now, Some(now - i * SubmitGapMs),
      Some(false), None, Some(DemoId(i)), Some(FirstName(p.name)), Some(LastName(p.name)),
      None, None, None, t.score, FlagsOf(t.reasons), answers, Some(t))
  }

  /** `GENERATE_DEMO_SESSIONS`: one session per profile, in profile order. */
  function GenerateDemoSessions(campaignId: string, now: int): (r: seq<Session>)
    ensures |r| == |DemoProfiles| == 10
  {
    seq(|DemoProfiles|, i requires 0 <= i < |DemoProfiles| => SessionOf(DemoProfiles[i], i, campaignId, now))
  }

  /** The answers keep the profile's name and its six triage fields as lists. */
  lemma AnswersOfKeys(p: Profile, i: nat)
    ensures var a := AnswersOf(p, i);
      && "name" in a && a["name"] == Text(p.name)
      && FamilyKey in a && a[FamilyKey] == Multi(p.historyFam)
      && PersonalKey in a && a[PersonalKey] == Multi(p.historyPers)
      && VascularKey in a && a[VascularKey] == Multi(p.vascular)
      && MedicationKey in a && a[MedicationKey] == Multi(p.meds)
      && HabitsKey in a && a[HabitsKey] == Multi(p.habits)
      && MentalHealthKey in a && a[MentalHealthKey] == Multi(p.mental)
  {
    assert "name" !in TriageAnswers(p) && "name" !in OtherAnswers(p);
  }

  lemma SessionOfFields(p: Profile, i: nat, campaignId: string, now: int)
    ensures var s := SessionOf(p, i, campaignId, now);
      && s.id == DemoId(i) && s.workerId == Some(DemoId(i))
      && s.status == Submitted && s.reviewed == Some(false) && s.campaignId == campaignId
      && s.submittedAt == Some(now - i * SubmitGapMs)
      && s.answers == AnswersOf(p, i)
      && s.triage == Some(ComputeTriage(s.answers))
      && s.redFlagScore == ComputeTriage(s.answers).score
      && s.redFlags == FlagsOf(ComputeTriage(s.answers).reasons)
      && s.workerFirstname == Some(FirstName(p.name)) && s.workerLastname == Some(LastName(p.name))
  {
  }

  /**
   The i-th generated session: id and worker id `ID-(1000+i)`, submitted and not reviewed, in
   the given campaign, submitted i·5 minutes before `now`, with the triage of its answers
   mirrored into the legacy score and red flags.
   */
  lemma GeneratedSession(campaignId: string, now: int, i: nat)
    requires i < 10
    ensures var s := GenerateDemoSessions(campaignId, now)[i];
      && s.id == DemoId(i) && s.workerId == Some(DemoId(i))
      && s.status == Submitted && s.reviewed == Some(false) && s.campaignId == campaignId
      && s.submittedAt == Some(now - i * SubmitGapMs)
      && s.answers == AnswersOf(DemoProfiles[i], i)
      && s.triage == Some(ComputeTriage(s.answers))
      && s.redFlagScore == ComputeTriage(s.answers).score
      && |s.redFlags| == |ComputeTriage(s.answers).reasons|
      && (forall k :: 0 <= k < |s.redFlags| ==>
            s.redFlags[k].title == ComputeTriage(s.answers).reasons[k] == s.redFlags[k].detail)
      && s.workerFirstname == Some(FirstName(DemoProfiles[i].name))
      && s.workerLastname == Some(LastName(DemoProfiles[i].name))
  {
    var p := DemoProfiles[i];
    assert GenerateDemoSessions(campaignId, now)[i] == SessionOf(p, i, campaignId, now);
    SessionOfFields(p, i, campaignId, now);
  }

  /**
   The first name holds no space; with a space in the name, first name, a space and last name
   give back the name; without one the last name is empty.
   */
  lemma NameSplit(name: string)
    ensures ' ' !in FirstName(name)
    ensures ' ' in name ==> FirstName(name) + " " + LastName(name) == name
    ensures ' ' !in name ==> FirstName(name) == name && LastName(name) == ""
  {
    Strings.SplitFields(name, ' ');
    Strings.JoinSplit(name, ' ');
  }

  /** `GET_DEMO_SESSION`: the demo session whose id is asked for, regenerated for the demo campaign. */
  function GetDemoSession(id: string, now: int): (r: Option<Session>)
    ensures r.Some? ==> Strings.StartsWith(id, "ID-1") && |id| == 7
  {
    if !Strings.StartsWith(id, "ID-1") || |id| != 7 then None
    else
      var index := Decimal.ParseIntPrefix(id[3..]);
      if index.None? then None
      else
        var offset := index.value - 1000;
        if 0 <= offset < 10 then Some(GenerateDemoSessions(Store.DemoCampaignId, now)[offset]) else None
  }

  lemma DemoIdShape(i: nat)
    requires i < 10
    ensures |DemoId(i)| == 7 && Strings.StartsWith(DemoId(i), "ID-1")
    ensures Decimal.ParseIntPrefix(DemoId(i)[3..]) == Some(1000 + i)
  {
    var digits := Decimal.NatToString(1000 + i);
    assert digits == Decimal.NatToString(100) + [Decimal.DigitChar(i)];
    assert digits == "100" + [Decimal.DigitChar(i)];
    assert DemoId(i)[3..] == digits;
    Decimal.ParseNatToString(1000 + i);
    Decimal.ParseIntNumeral(digits);
  }

  /** Each generated id finds its own session. */
  lemma GetDemoFindsEach(now: int, i: nat)
    requires i < 10
    ensures GetDemoSession(DemoId(i), now) == Some(GenerateDemoSessions(Store.DemoCampaignId, now)[i])
  {
    DemoIdShape(i);
  }

  /** An id of the demo shape whose number is 1000..1009 is exactly the generated id of that offset. */
  lemma DemoIdParse(id: string)
    requires Strings.StartsWith(id, "ID-1") && |id| == 7
    requires Decimal.ParseIntPrefix(id[3..]).Some?
    requires 1000 <= Decimal.ParseIntPrefix(id[3..]).value < 1010
    ensures id == DemoId(Decimal.ParseIntPrefix(id[3..]).value - 1000)
  {
    var tail := id[3..];
    var p := Decimal.DigitPrefix(tail);
    assert tail[0] == id[3] == '1';
    if |p| < 4 {
      Decimal.ParseDigitsBound(p);
      assert false;
    }
    assert p == tail;
    Decimal.NatToStringParse(tail);
    assert id == "ID-" + tail;
  }

  /** Whatever the lookup returns is the session with exactly the id asked for. */
  lemma GetDemoReturnsAsked(id: string, now: int)
    requires GetDemoSession(id, now).Some?
    ensures GetDemoSession(id, now).value.id == id
  {
    DemoIdParse(id);
    GeneratedSession(Store.DemoCampaignId, now, Decimal.ParseIntPrefix(id[3..]).value - 1000);
  }

  /** A successful lookup was asked for an id of the demo shape whose number is 1000..1009. */
  lemma GetDemoShape(id: string, now: int)
    requires GetDemoSession(id, now).Some?
    ensures Strings.StartsWith(id, "ID-1") && |id| == 7
    ensures Decimal.ParseIntPrefix(id[3..]).Some?
    ensures 1000 <= Decimal.ParseIntPrefix(id[3..]).value < 1010
  {
  }

  /** The lookup answers exactly the ten generated ids. */
  lemma GetDemoIff(id: string, now: int)
    ensures GetDemoSession(id, now).Some? <==> exists i :: 0 <= i < 10 && id == DemoId(i)
  {
    if GetDemoSession(id, now).Some? {
      GetDemoOnlyDemoIds(id, now);
    }
    if i :| 0 <= i < 10 && id == DemoId(i) {
      GetDemoFindsEach(now, i);
    }
  }

  /** Only a generated id finds a session. */
  lemma GetDemoOnlyDemoIds(id: string, now: int)
    requires GetDemoSession(id, now).Some?
    ensures exists i :: 0 <= i < 10 && id == DemoId(i)
  {
    GetDemoShape(id, now);
    DemoIdParse(id);
    var i := Decimal.ParseIntPrefix(id[3..]).value - 1000;
    assert 0 <= i < 10 && id == DemoId(i);
  }

  /** The last profile answers "none" everywhere: score 0, green, no reasons, only the filler questions. */
  lemma LastProfileIsGreen(campaignId: string, now: int)
    ensures GenerateDemoSessions(campaignId, now)[9].triage == Some(TriageAnalysis(0, Verde, [], SummaryVerde, Fillers))
    ensures GenerateDemoSessions(campaignId, now)[9].redFlags == []
  {
    var p := DemoProfiles[9];
    assert p.historyFam == [FamilyNoneKnown] && p.historyPers == [No] && p.vascular == [No];
    assert p.meds == [No] && p.habits == [No] && p.mental == [No];
    AnswersOfKeys(p, 9);
    TriageProperties.AllSentinels(AnswersOf(p, 9));
    GeneratedSession(campaignId, now, 9);
  }
}

=== FILE: identification.dfy ===
/**
 The identification form: the worker's age from the date of birth and the adults-only gate on
 submission. Dates are calendar triples; parsing the
 form's date string and time zones are outside the model.
 */
module Identification {

  /** A calendar date as the browser's local `getFullYear`, `getMonth` and `getDate` report it. */
  datatype Date = Date(year: int, month: int, day: int)

  /** What the date-of-birth field holds. */
  datatype Dob = NoDob | Unparsable | Born(date: Date)

  /** `a` is on or before `b` in calendar order. */
  predicate OnOrBefore(a: Date, b: Date)
  {
    a.year < b.year || (a.year == b.year && (a.month < b.month || (a.month == b.month && a.day <= b.day)))
  }

  /** The same month and day, `n` years later. */
  function YearsLater(d: Date, n: int): Date
  {
    d.(year := d.year + n)
  }

  /** The year difference, one less while this year's birthday has not come yet. */
  function Age(today: Date, birth: Date): int
  {
    var age := today.year - birth.year;
    var m := today.month - birth.month;
    if m < 0 || (m == 0 && today.day < birth.day) then age - 1 else age
  }

  /** Age counts completed years: it is at least `n` exactly when the `n`-th birthday is today or past. */
  lemma AgeCountsBirthdays(today: Date, birth: Date, n: int)
    ensures Age(today, birth) >= n <==> OnOrBefore(YearsLater(birth, n), today)
  {
  }

  /** On the 18th birthday itself the age is 18; the day before, 17. */
  lemma EighteenthBirthday(birth: Date)
    ensures Age(YearsLater(birth, 18), birth) == 18
    ensures birth.day > 1 ==> Age(YearsLater(birth, 18).(day := birth.day - 1), birth) == 17
  {
  }

  datatype SubmitOutcome = NoSession | Underage | Save

  /**
   Pressing submit: without a session nothing happens; a parsed date of birth of someone under
   18 stops the submission; otherwise the details are saved. An empty or unparsable date is not
   checked (an unparsable one gives a `NaN` age, which is not below 18).
   */
  function HandleSubmit(hasSession: bool, dob: Dob, today: Date): (r: SubmitOutcome)
    ensures r == NoSession <==> !hasSession
    ensures r == Underage <==> hasSession && dob.Born? && !OnOrBefore(YearsLater(dob.date, 18), today)
    ensures dob.NoDob? || dob.Unparsable? ==> r != Underage
  {
    if !hasSession then NoSession
    else if dob.Born? then
      AgeCountsBirthdays(today, dob.date, 18);
      if Age(today, dob.date) < 18 then Underage else Save
    else Save
  }

  /** With a session, submitting an adult's date of birth leads to saving the details. */
  lemma AdultSaves(birth: Date, today: Date)
    requires Age(today, birth) >= 18
    ensures HandleSubmit(true, Born(birth), today) == Save
  {
    AgeCountsBirthdays(today, birth, 18);
  }
}

=== FILE: panel.dfy ===
/**
 The doctor's review queue: priority buckets from the legacy red-flag score, the queue order,
 the search box and the priority filter, and the priority badge.
 */
module Panel {
  import opened Wrappers
  import opened Answers
  import opened Records
  import opened Seqs
  import Strings

  /** The priority bucket: 3 (high) from 5 up, 2 (medium) from 3 up, 1 (normal) below. */
  function GetPrio(score: int): (p: int)
    ensures 1 <= p <= 3
    ensures score >= 5 ==> p == 3
    ensures 3 <= score < 5 ==> p == 2
    ensures score < 3 ==> p == 1
  {
    if score >= 5 then 3 else if score >= 3 then 2 else 1
  }

  /** A higher score never lands in a lower bucket. */
  lemma GetPrioMonotone(a: int, b: int)
    requires a <= b
    ensures GetPrio(a) <= GetPrio(b)
  {
  }

  datatype Badge = Alta | Media | NormalBadge

  function PriorityBadge(score: int): Badge
  {
    if score >= 5 then Alta else if score >= 3 then Media else NormalBadge
  }

  /** The values of the priority selector. */
  datatype PriorityFilter = AllPriorities | High | Medium | Normal

  predicate PassesPriority(f: PriorityFilter, score: int)
  {
    match f
    case AllPriorities => true
    case High => score >= 5
    case Medium => score >= 3 && score < 5
    case Normal => score < 3
  }

  /** The filter that selects one bucket. */
  function BucketFilter(p: int): PriorityFilter
  {
    if p == 3 then High else if p == 2 then Medium else Normal
  }

  /**
   The three bucket filters split the scores: each score passes exactly one of them, the one
   whose badge it shows and whose bucket it sorts in.
   */
  lemma FiltersPartition(score: int)
    ensures PassesPriority(High, score) || PassesPriority(Medium, score) || PassesPriority(Normal, score)
    ensures !(PassesPriority(High, score) && PassesPriority(Medium, score))
    ensures !(PassesPriority(High, score) && PassesPriority(Normal, score))
    ensures !(PassesPriority(Medium, score) && PassesPriority(Normal, score))
    ensures forall f :: f != AllPriorities ==> (PassesPriority(f, score) <==> f == BucketFilter(GetPrio(score)))
  {
  }

  /** The badge names the bucket: ALTA, MEDIA and NORMAL for 3, 2 and 1. */
  lemma BadgeAgreesWithBucket(score: int)
    ensures PriorityBadge(score) == Alta <==> GetPrio(score) == 3
    ensures PriorityBadge(score) == Media <==> GetPrio(score) == 2
    ensures PriorityBadge(score) == NormalBadge <==> GetPrio(score) == 1
    ensures PriorityBadge(score) == Alta <==> PassesPriority(High, score)
    ensures PriorityBadge(score) == Media <==> PassesPriority(Medium, score)
    ensures PriorityBadge(score) == NormalBadge <==> PassesPriority(Normal, score)
  {
  }

  /** `String(answers.name)` when the answer is truthy. */
  predicate NameMatches(s: Session, term: string)
  {
    "name" in s.answers && Truthy(s.answers["name"])
    && Strings.Contains(Strings.ToLower(AsString(s.answers["name"])), term)
  }

  /** A session matches a lowercased search term through its worker id or its name answer. */
  predicate MatchesSearch(s: Session, term: string)
  {
    (s.workerId.Some? && Strings.Contains(Strings.ToLower(s.workerId.value), term)) || NameMatches(s, term)
  }

  /** The rows the queue shows for the search box and the priority selector. */
  function FilterQueue(sessions: seq<Session>, searchTerm: string, f: PriorityFilter): (r: seq<Session>)
    ensures forall s :: s in r <==>
      (s in sessions
       && (searchTerm == "" || MatchesSearch(s, Strings.ToLower(searchTerm)))
       && PassesPriority(f, s.redFlagScore))
    ensures forall s :: (multiset(r)[s] ==
      if (searchTerm == "" || MatchesSearch(s, Strings.ToLower(searchTerm))) && PassesPriority(f, s.redFlagScore)
      then multiset(sessions)[s] else 0)
    ensures IsSubsequence(r, sessions)
    ensures searchTerm == "" && f == AllPriorities ==> r == sessions
  {
    var term := Strings.ToLower(searchTerm);
    var search := (s: Session) => MatchesSearch(s, term);
    var priority := (s: Session) => PassesPriority(f, s.redFlagScore);
    var found := if searchTerm != "" then Filter(sessions, search) else sessions;
    var shown := if f != AllPriorities then Filter(found, priority) else found;
    TwoStageFilter(sessions, searchTerm != "", search, f != AllPriorities, priority,
                   (s: Session) => (searchTerm == "" || MatchesSearch(s, term)) && PassesPriority(f, s.redFlagScore));
    assert forall s :: s in shown <==> multiset(shown)[s] > 0;
    assert forall s :: s in sessions <==> multiset(sessions)[s] > 0;
    shown
  }

  /** The search is case-insensitive for ASCII letters: the term's case does not matter. */
  lemma SearchIgnoresCase(sessions: seq<Session>, t1: string, t2: string, f: PriorityFilter)
    requires t1 != "" && t2 != "" && Strings.ToLower(t1) == Strings.ToLower(t2)
    ensures FilterQueue(sessions, t1, f) == FilterQueue(sessions, t2, f)
  {
  }

  /** Sort key order: higher bucket first, then later submission first. */
  predicate Before(a: Session, b: Session)
    requires a.submittedAt.Some? && b.submittedAt.Some?
  {
    GetPrio(a.redFlagScore) > GetPrio(b.redFlagScore)
    || (GetPrio(a.redFlagScore) == GetPrio(b.redFlagScore) && a.submittedAt.value >= b.submittedAt.value)
  }

  /** The comparator says `a` goes strictly first. */
  predicate StrictlyBefore(a: Session, b: Session)
    requires a.submittedAt.Some? && b.submittedAt.Some?
  {
    GetPrio(a.redFlagScore) > GetPrio(b.redFlagScore)
    || (GetPrio(a.redFlagScore) == GetPrio(b.redFlagScore) && a.submittedAt.value > b.submittedAt.value)
  }

  predicate AllSubmitted(xs: seq<Session>)
  {
    forall i :: 0 <= i < |xs| ==> xs[i].submittedAt.Some?
  }

  predicate Sorted(xs: seq<Session>)
    requires AllSubmitted(xs)
  {
    forall i, j :: 0 <= i < j < |xs| ==> Before(xs[i], xs[j])
  }

  /** Inserts `x` after every entry it does not strictly precede, which keeps equal keys in arrival order. */
  function Insert(x: Session, xs: seq<Session>): (r: seq<Session>)
    requires x.submittedAt.Some? && AllSubmitted(xs)
    ensures AllSubmitted(r)
    ensures multiset(r) == multiset(xs) + multiset{x}
    ensures Sorted(xs) ==> Sorted(r)
    decreases |xs|
  {
    if |xs| == 0 then [x]
    else if StrictlyBefore(x, xs[0]) then
      SortedCons(x, xs);
      [x] + xs
    else
      var rest := Insert(x, xs[1..]);
      assert xs == [xs[0]] + xs[1..];
      MultisetMembers(rest, x, xs[1..]);
      SortedCons(xs[0], rest);
      [xs[0]] + rest
  }

  /** Every entry of a sequence holding `ys` and one more `x` is `x` or an entry of `ys`. */
  lemma MultisetMembers(rest: seq<Session>, x: Session, ys: seq<Session>)
    requires multiset(rest) == multiset(ys) + multiset{x}
    ensures forall k :: 0 <= k < |rest| ==> rest[k] == x || rest[k] in ys
  {
    forall k | 0 <= k < |rest|
      ensures rest[k] == x || rest[k] in ys
    {
      assert rest[k] in multiset(rest);
    }
  }

  /** An entry that goes before every entry of a sorted queue can head it. */
  lemma SortedCons(y: Session, rest: seq<Session>)
    requires y.submittedAt.Some? && AllSubmitted(rest)
    ensures AllSubmitted([y] + rest)
    ensures Sorted(rest) && (forall k :: 0 <= k < |rest| ==> Before(y, rest[k])) ==> Sorted([y] + rest)
  {
    var r := [y] + rest;
    assert forall k :: 0 < k < |r| ==> r[k] == rest[k - 1];
  }

  /** The queue order: a stable sort by bucket, descending, then submission time, descending. */
  function SortQueue(xs: seq<Session>): (r: seq<Session>)
    requires AllSubmitted(xs)
    ensures AllSubmitted(r) && Sorted(r)
    ensures multiset(r) == multiset(xs)
    decreases |xs|
  {
    if |xs| == 0 then []
    else
      assert xs == xs[..|xs| - 1] + [xs[|xs| - 1]];
      Insert(xs[|xs| - 1], SortQueue(xs[..|xs| - 1]))
  }

  /** A queue already in order comes back unchanged: the sort never swaps entries of equal key. */
  lemma {:induction false} SortKeepsSorted(xs: seq<Session>)
    requires AllSubmitted(xs) && Sorted(xs)
    ensures SortQueue(xs) == xs
    decreases |xs|
  {
    if |xs| > 0 {
      var init := xs[..|xs| - 1];
      SortKeepsSorted(init);
      InsertAtEnd(xs[|xs| - 1], init);
      assert init + [xs[|xs| - 1]] == xs;
    }
  }

  /** Where `Insert` puts `x`: the first entry `x` strictly precedes, or the end. */
  function InsertPoint(x: Session, xs: seq<Session>): (k: nat)
    requires x.submittedAt.Some? && AllSubmitted(xs)
    ensures k <= |xs|
    ensures forall j :: 0 <= j < k ==> !StrictlyBefore(x, xs[j])
    ensures k < |xs| ==> StrictlyBefore(x, xs[k])
    decreases |xs|
  {
    if |xs| == 0 || StrictlyBefore(x, xs[0]) then 0
    else 1 + InsertPoint(x, xs[1..])
  }

  /** `Insert` splices `x` in at its insertion point and moves nothing else. */
  lemma {:induction false} InsertAtPoint(x: Session, xs: seq<Session>)
    requires x.submittedAt.Some? && AllSubmitted(xs)
    ensures var k := InsertPoint(x, xs); Insert(x, xs) == xs[..k] + [x] + xs[k..]
    decreases |xs|
  {
    if |xs| == 0 || StrictlyBefore(x, xs[0]) {
      assert xs[..0] == [] && xs[0..] == xs;
    } else {
      InsertAtPoint(x, xs[1..]);
      InsertStep(x, xs);
      SpliceCons(xs, x, InsertPoint(x, xs[1..]));
    }
  }

  /** Past an entry it does not strictly precede, `x` goes into the rest, one place further on. */
  lemma InsertStep(x: Session, xs: seq<Session>)
    requires x.submittedAt.Some? && AllSubmitted(xs)
    requires |xs| > 0 && !StrictlyBefore(x, xs[0])
    ensures Insert(x, xs) == [xs[0]] + Insert(x, xs[1..])
    ensures InsertPoint(x, xs) == 1 + InsertPoint(x, xs[1..])
  {
  }

  /** Splicing into the tail is splicing one place further into the whole. */
  lemma SpliceCons<T>(xs: seq<T>, x: T, k: nat)
    requires k < |xs|
    ensures [xs[0]] + (xs[1..][..k] + [x] + xs[1..][k..]) == xs[..k + 1] + [x] + xs[k + 1..]
  {
    assert xs[..k + 1] == [xs[0]] + xs[1..][..k];
    assert xs[k + 1..] == xs[1..][k..];
  }

  /** The sessions with bucket `prio` submitted at `t`: those the comparator cannot tell apart. */
  function KeyIs(prio: int, t: int): Session -> bool
  {
    (s: Session) => GetPrio(s.redFlagScore) == prio && s.submittedAt == Some(t)
  }

  /** An entry `x` strictly precedes, or anything after it in a sorted queue, has another key than `x`. */
  lemma SortedAfterStrict(x: Session, xs: seq<Session>, prio: int, t: int)
    requires x.submittedAt.Some? && AllSubmitted(xs) && Sorted(xs)
    requires |xs| > 0 && StrictlyBefore(x, xs[0]) && KeyIs(prio, t)(x)
    ensures forall i :: 0 <= i < |xs| ==> !KeyIs(prio, t)(xs[i])
  {
    forall i | 0 <= i < |xs|
      ensures !KeyIs(prio, t)(xs[i])
    {
      if i > 0 {
        assert Before(xs[0], xs[i]);
      }
    }
  }

  /**
   Inserting into a sorted queue puts `x` after every entry of the same key, so the entries of
   any one key are those of the queue, then `x` if it has that key.
   */
  lemma {:induction false} InsertKeepsKeyOrder(x: Session, xs: seq<Session>, prio: int, t: int)
    requires x.submittedAt.Some? && AllSubmitted(xs) && Sorted(xs)
    ensures Filter(Insert(x, xs), KeyIs(prio, t))
      == Filter(xs, KeyIs(prio, t)) + (if KeyIs(prio, t)(x) then [x] else [])
    decreases |xs|
  {
    var p := KeyIs(prio, t);
    if |xs| == 0 {
    } else if StrictlyBefore(x, xs[0]) {
      if p(x) {
        SortedAfterStrict(x, xs, prio, t);
        FilterNone(xs, p);
      }
    } else {
      assert Sorted(xs[1..]);
      InsertKeepsKeyOrder(x, xs[1..], prio, t);
    }
  }

  /**
   The sort is stable: for every key, the sessions with that key come out in the order they
   went in.
   */
  lemma {:induction false} SortQueueStable(xs: seq<Session>, prio: int, t: int)
    requires AllSubmitted(xs)
    ensures Filter(SortQueue(xs), KeyIs(prio, t)) == Filter(xs, KeyIs(prio, t))
    decreases |xs|
  {
    if |xs| > 0 {
      var init := xs[..|xs| - 1];
      var last := xs[|xs| - 1];
      var p := KeyIs(prio, t);
      assert xs == init + [last];
      assert SortQueue(xs) == Insert(last, SortQueue(init));
      SortQueueStable(init, prio, t);
      InsertKeepsKeyOrder(last, SortQueue(init), prio, t);
      FilterAppend(init, [last], p);
      assert Filter([last], p) == if p(last) then [last] else [];
    }
  }

  lemma {:induction false} InsertAtEnd(x: Session, xs: seq<Session>)
    requires x.submittedAt.Some? && AllSubmitted(xs)
    requires forall i :: 0 <= i < |xs| ==> Before(xs[i], x)
    ensures Insert(x, xs) == xs + [x]
    decreases |xs|
  {
    if |xs| > 0 {
      InsertAtEnd(x, xs[1..]);
      assert [xs[0]] + (xs[1..] + [x]) == xs + [x];
    }
  }
}

=== FILE: qr_admin.dfy ===
/**
 The QR display for reception: the countdown to the token's expiry, the link the QR code
 encodes, and the short session code shown under it.
 */
module QrAdmin {
  import opened Wrappers
  import opened Decimal
  import Strings
  import Store

  const MinuteMs := 60000
  const SecondMs := 1000

  /** The shown text before any expiry is known. */
  const NoCountdown := "--:--"

  /** Seconds with a leading zero below ten. */
  function TwoDigits(s: nat): (r: string)
    requires s < 60
    ensures |r| == 2 && AllDigits(r) && ParseDigits(r) == s
  {
    var n := NatToString(s);
    ParseNatToString(s);
    if s < 10 then
      ParseDigitsBound(n);
      assert |n| == 1;
      ParseLeadingZeros(1, n);
      "0" + n
    else
      ParseDigitsBound(n);
      assert |n| == 2;
      n
  }

  /** The countdown for `diff` milliseconds left: `Expirado` once none are left, else minutes:seconds. */
  function Countdown(diff: int): (r: string)
    ensures diff <= 0 <==> r == "Expirado"
  {
    if diff <= 0 then "Expirado"
    else
      var minutes := diff / MinuteMs;
      var seconds := (diff % MinuteMs) / SecondMs;
      var r := NatToString(minutes) + ":" + TwoDigits(seconds);
      assert r[|NatToString(minutes)|] == ':';
      r
  }

  /** One tick of the countdown: without an expiry the shown text stays as it was. */
  function Tick(expiresAt: Option<int>, now: int, shown: string): (r: string)
    ensures expiresAt.None? ==> r == shown
    ensures expiresAt.Some? ==> (r == "Expirado" <==> expiresAt.value <= now)
  {
    match expiresAt
    case None => shown
    case Some(t) => Countdown(t - now)
  }

  /**
   The countdown reads back as unpadded whole minutes and two-digit whole seconds that
   together are the time left, rounded down to the second.
   */
  lemma CountdownReadsBack(diff: int)
    requires diff > 0
    ensures var parts := Strings.Split(Countdown(diff), ':');
      && |parts| == 2
      && AllDigits(parts[0]) && AllDigits(parts[1]) && |parts[1]| == 2
      && NatToString(ParseDigits(parts[0])) == parts[0]
      && ParseDigits(parts[1]) <= 59
      && ParseDigits(parts[0]) * MinuteMs + ParseDigits(parts[1]) * SecondMs <= diff
      && diff < ParseDigits(parts[0]) * MinuteMs + (ParseDigits(parts[1]) + 1) * SecondMs
  {
    var minutes := diff / MinuteMs;
    var seconds := (diff % MinuteMs) / SecondMs;
    var m := NatToString(minutes);
    var s := TwoDigits(seconds);
    assert ':' !in m;
    assert ':' !in s;
    assert Countdown(diff) == m + [':'] + s;
    Strings.SplitAt(m, s, ':');
    Strings.SplitFields(s, ':');
    ParseNatToString(minutes);
  }

  /** Under a second left still shows a running clock at zero, not the expiry. */
  lemma LastSecondShowsZero(diff: int)
    requires 0 < diff < SecondMs
    ensures Countdown(diff) == "0:00"
  {
    assert NatToString(0) == "0";
  }

  /** The link the QR code encodes; neither value is escaped. */
  function FullUrl(baseUrl: string, campaignId: string, token: string): string
  {
    baseUrl + "/start?campaign_id=" + campaignId + "&token=" + token
  }

  /**
   The link's query splits back into the campaign and the token when neither contains `&`;
   a token with `&` in it splits into extra fields, since nothing is escaped.
   */
  lemma FullUrlQuery(baseUrl: string, campaignId: string, token: string)
    ensures var q := "campaign_id=" + campaignId + "&token=" + token;
      && FullUrl(baseUrl, campaignId, token) == baseUrl + "/start?" + q
      && ('&' !in campaignId && '&' !in token ==>
            Strings.Split(q, '&') == ["campaign_id=" + campaignId, "token=" + token])
      && ('&' !in campaignId && '&' in token ==> |Strings.Split(q, '&')| > 2)
  {
    var first := "campaign_id=" + campaignId;
    var second := "token=" + token;
    var q := first + "&" + second;
    assert q == "campaign_id=" + campaignId + "&token=" + token;
    if '&' !in campaignId {
      assert '&' !in first;
      assert q == first + ['&'] + second;
      Strings.SplitAt(first, second, '&');
      Strings.SplitFields(second, '&');
      if '&' in token {
        var k :| 0 <= k < |token| && token[k] == '&';
        assert second[k + 6] == '&';
      } else {
        assert '&' !in second;
      }
    }
  }

  /** The session code: the token's first 8 characters, dashes for no token, then an ellipsis. */
  function SessionCode(token: string): (r: string)
    ensures |r| >= 3 && r[|r| - 3..] == "..."
    ensures token == "" ==> r == "--------..."
    ensures token != "" ==> r[..|r| - 3] <= token && |r| == (if |token| < 8 then |token| else 8) + 3
  {
    var shown := if |token| < 8 then token else token[..8];
    (if shown == "" then "--------" else shown) + "..."
  }

  /** A token issued by rotation is 8 characters long, so the code shows all of it. */
  lemma SessionCodeShowsRotatedToken(uuid: string)
    requires |uuid| >= 8
    ensures SessionCode(Store.TokenOf(uuid)) == Store.TokenOf(uuid) + "..."
  {
  }
}

=== FILE: question_renderer.dfy ===
/**
 The answer widget of one question: choosing an option, toggling a multi-select list with
 its exclusive "none" entries, and the free-text "other" answer.
 */
module QuestionRenderer {
  import opened Wrappers
  import opened Answers
  import opened Questionnaire
  import opened Seqs
  import Strings

  /** The option that opens the free-text sheet instead of answering. */
  const OtherOption := "Otro (especificar)"
  const Ninguna := "Ninguna"
  const Ninguno := "Ninguno"

  /** "None" entries: selecting one clears every other choice of a multi-select list. */
  predicate IsExclusive(option: string)
  {
    option == Ninguna || option == Ninguno
  }

  /** The question's stored value next to the widget's own state of the "other" sheet. */
  datatype RendererState = RendererState(value: Option<Answer>, otherOpen: bool, otherText: string)

  /** `question.options?.includes(s)`: false when the question has no options. */
  predicate AmongOptions(q: Question, s: string)
  {
    q.options.Some? && s in q.options.value
  }

  /** The list a multi-select toggle of `option` stores. */
  function HandleMulti(value: Option<Answer>, option: string): seq<string>
  {
    var current := ListOrEmpty(value);
    if IsExclusive(option) then
      if option in current then [] else [option]
    else
      var next := Filter(current, v => !IsExclusive(v));
      if option in next then Filter(next, v => v != option) else next + [option]
  }

  /** A click on `option`. */
  function HandleSelect(q: Question, st: RendererState, option: string): RendererState
  {
    if option == OtherOption then
      var custom := st.value.Some? && st.value.value.Text? && st.value.value.text != ""
        && !AmongOptions(q, st.value.value.text);
      st.(otherOpen := true, otherText := if custom then st.value.value.text else st.otherText)
    else if q.qtype == MultiChoice then
      st.(value := Some(Multi(HandleMulti(st.value, option))))
    else
      st.(value := Some(Text(option)))
  }

  /** "Guardar" on the free-text sheet. */
  function SaveOther(q: Question, st: RendererState): RendererState
  {
    if Strings.Trim(st.otherText) == "" then st
    else if q.qtype == MultiChoice then
      st.(value := Some(Multi(ListOrEmpty(st.value) + [st.otherText])), otherOpen := false)
    else
      st.(value := Some(Text(st.otherText)), otherOpen := false)
  }

  /** A non-empty text value that is not one of the question's options. */
  predicate IsCustomValue(q: Question, value: Option<Answer>)
  {
    match value
    case None => false
    case Some(Multi(_)) => false
    case Some(Text(s)) => s != "" && !AmongOptions(q, s)
  }

  /** Whether the option is shown ticked. */
  predicate IsSelected(value: Option<Answer>, option: string)
  {
    match value
    case Some(Multi(xs)) => option in xs
    case _ => value == Some(Text(option))
  }

  /**
   Choosing "Otro (especificar)" only opens the sheet: the value is unchanged, and the sheet
   starts from the current value exactly when that value is a custom one.
   */
  lemma OtherOpensSheet(q: Question, st: RendererState)
    ensures HandleSelect(q, st, OtherOption).value == st.value
    ensures HandleSelect(q, st, OtherOption).otherOpen
    ensures IsCustomValue(q, st.value) ==> HandleSelect(q, st, OtherOption).otherText == st.value.value.text
    ensures !IsCustomValue(q, st.value) ==> HandleSelect(q, st, OtherOption).otherText == st.otherText
  {
  }

  /** On a question that is not multi-select, an ordinary option becomes the whole value. */
  lemma SingleSelectSets(q: Question, st: RendererState, option: string)
    requires option != OtherOption && q.qtype != MultiChoice
    ensures HandleSelect(q, st, option) == st.(value := Some(Text(option)))
    ensures IsSelected(HandleSelect(q, st, option).value, option)
    ensures forall o :: IsSelected(HandleSelect(q, st, option).value, o) ==> o == option
  {
  }

  /** A value that is not a list reads as the empty list before a toggle. */
  lemma NonListIsEmptyList(value: Option<Answer>, option: string)
    requires value.None? || value.value.Text?
    ensures HandleMulti(value, option) == HandleMulti(Some(Multi([])), option)
  {
  }

  /** An exclusive entry clears the list when it was selected and becomes the only entry otherwise. */
  lemma ToggleExclusive(value: Option<Answer>, option: string)
    requires IsExclusive(option)
    ensures option in ListOrEmpty(value) ==> HandleMulti(value, option) == []
    ensures option !in ListOrEmpty(value) ==> HandleMulti(value, option) == [option]
  {
  }

  /**
   Any other option: both exclusive entries go, the option's membership flips, every other
   entry keeps its membership, and the kept entries stay in their order.
   */
  lemma {:induction false} ToggleOrdinary(value: Option<Answer>, option: string)
    requires !IsExclusive(option)
    ensures var r := HandleMulti(value, option);
      && Ninguna !in r && Ninguno !in r
      && (option in r <==> option !in ListOrEmpty(value))
      && (forall x :: x != option && !IsExclusive(x) ==> (x in r <==> x in ListOrEmpty(value)))
      && (option in ListOrEmpty(value) ==> IsSubsequence(r, ListOrEmpty(value)))
      && (option in ListOrEmpty(value) ==>
            forall x :: multiset(r)[x] == if x == option || IsExclusive(x) then 0 else multiset(ListOrEmpty(value))[x])
      && (option !in ListOrEmpty(value) ==> r[..|r| - 1] == Filter(ListOrEmpty(value), v => !IsExclusive(v)))
  {
    if option in ListOrEmpty(value) {
      ToggleOffCounts(value, option);
    }
    var current := ListOrEmpty(value);
    var next := Filter(current, v => !IsExclusive(v));
    var r := HandleMulti(value, option);
    FilterMembership(current, v => !IsExclusive(v), option);
    FilterMembership(current, v => !IsExclusive(v), Ninguna);
    FilterMembership(current, v => !IsExclusive(v), Ninguno);
    forall x | x != option && !IsExclusive(x)
      ensures x in r <==> x in current
    {
      FilterMembership(current, v => !IsExclusive(v), x);
      FilterMembership(next, v => v != option, x);
    }
    if option in next {
      FilterMembership(next, v => v != option, option);
      FilterMembership(next, v => v != option, Ninguna);
      FilterMembership(next, v => v != option, Ninguno);
      FilterIsSubsequence(current, v => !IsExclusive(v));
      FilterIsSubsequence(next, v => v != option);
      SubsequenceTrans(r, next, current);
    } else {
      assert r[..|r| - 1] == next;
    }
  }

  /** Toggling off a present ordinary option drops every copy of it and of the exclusive entries, and only those. */
  lemma ToggleOffCounts(value: Option<Answer>, option: string)
    requires !IsExclusive(option) && option in ListOrEmpty(value)
    ensures forall x :: (multiset(HandleMulti(value, option))[x]
      == if x == option || IsExclusive(x) then 0 else multiset(ListOrEmpty(value))[x])
  {
    var current := ListOrEmpty(value);
    var next := Filter(current, v => !IsExclusive(v));
    FilterMembership(current, v => !IsExclusive(v), option);
    assert HandleMulti(value, option) == Filter(next, v => v != option);
    FilterMultiset(current, v => !IsExclusive(v));
    FilterMultiset(next, v => v != option);
  }

  /** Toggling an absent ordinary option twice on a list without exclusive entries restores it. */
  lemma ToggleTwice(xs: seq<string>, option: string)
    requires !IsExclusive(option) && option !in xs
    requires forall i :: 0 <= i < |xs| ==> !IsExclusive(xs[i])
    ensures HandleMulti(Some(Multi(HandleMulti(Some(Multi(xs)), option))), option) == xs
  {
    FilterAll(xs, v => !IsExclusive(v));
    var once := xs + [option];
    assert HandleMulti(Some(Multi(xs)), option) == once;
    FilterAll(once, v => !IsExclusive(v));
    FilterAppend(xs, [option], v => v != option);
    FilterAll(xs, v => v != option);
  }

  /**
   Saving whitespace-only text changes nothing; otherwise the sheet closes and the text is
   appended to a multi-select list, even when it is already there, or replaces the value.
   */
  lemma SaveOtherEffect(q: Question, st: RendererState)
    ensures Strings.AllWhitespace(st.otherText) ==> SaveOther(q, st) == st
    ensures !Strings.AllWhitespace(st.otherText) ==> !SaveOther(q, st).otherOpen
    ensures !Strings.AllWhitespace(st.otherText) && q.qtype == MultiChoice ==>
      SaveOther(q, st).value == Some(Multi(ListOrEmpty(st.value) + [st.otherText]))
    ensures !Strings.AllWhitespace(st.otherText) && q.qtype != MultiChoice ==>
      SaveOther(q, st).value == Some(Text(st.otherText))
  {
    Strings.TrimEmptyIffBlank(st.otherText);
  }

  /**
   Saving a text that is not an option on a single-answer question makes the value custom,
   and reopening the sheet shows the saved text again.
   */
  lemma SaveThenReopen(q: Question, st: RendererState)
    requires q.qtype != MultiChoice && !Strings.AllWhitespace(st.otherText)
    requires !AmongOptions(q, st.otherText)
    ensures IsCustomValue(q, SaveOther(q, st).value)
    ensures HandleSelect(q, SaveOther(q, st), OtherOption).otherText == st.otherText
  {
    Strings.TrimEmptyIffBlank(st.otherText);
    assert st.otherText != "";
  }

  /**
   A non-empty text value is custom exactly when no option of the question is shown ticked;
   lists are never custom.
   */
  lemma CustomIffNoOptionTicked(q: Question, value: Option<Answer>)
    requires q.options.Some?
    requires value.Some? && (value.value.Multi? || value.value.text != "")
    ensures IsCustomValue(q, value) <==> value.value.Text? && forall o :: o in q.options.value ==> !IsSelected(value, o)
  {
  }

  /**
   On a multi-select question whose value is a list (or unset), clicking an option flips
   whether that option is ticked.
   */
  lemma SelectFlipsTick(q: Question, st: RendererState, option: string)
    requires q.qtype == MultiChoice && option != OtherOption
    requires st.value.None? || st.value.value.Multi?
    ensures IsSelected(HandleSelect(q, st, option).value, option) <==> !IsSelected(st.value, option)
  {
    if !IsExclusive(option) {
      ToggleOrdinary(st.value, option);
    }
  }
}

=== FILE: questionnaire.dfy ===
/** The questionnaire configuration: questions, exposure-triggered modules and closing questions. */
module Questionnaire {
  import opened Wrappers

  datatype QuestionType = Single | MultiChoice | FreeText | Number | Info

  /** Show the question only when the answer to `question` is exactly the string `equals`. */
  datatype ShowIf = ShowIf(question: string, equals: string)

  /**
   One question. `required` is the optional flag of the configuration (absent means the
   default); `options` is absent on free-text and info questions.
   */
  datatype Question = Question(
    id: string,
    qtype: QuestionType,
    options: Option<seq<string>>,
    required: Option<bool>,
    showIf: Option<ShowIf>)

  /** A module of extra questions, asked when one of `exposuresIncludes` was declared. */
  datatype QuestionModule = QuestionModule(
    id: string,
    exposuresIncludes: Option<seq<string>>,
    questions: seq<Question>)

  datatype Config = Config(
    core: seq<Question>,
    modules: seq<QuestionModule>,
    closing: Option<seq<Question>>)
}

=== FILE: records.dfy ===
/**
 The application's records: campaigns, worker sessions and reports. Timestamps, stored by the
 application as ISO-8601 strings, are milliseconds since the epoch here.
 */
module Records {
  import opened Wrappers
  import opened Answers
  import opened Triage

  datatype CopyMode = Email | Download | Both

  datatype CampaignSettings = CampaignSettings(
    allowWorkerCopy: bool,
    workerCopyMode: CopyMode,
    sessionTimeoutMinutes: int)

  /** A health-check campaign; its QR token may be rotated and may carry an expiry. */
  datatype Campaign = Campaign(
    id: string,
    companyName: string,
    unitName: string,
    location: Option<string>,
    doctorEmails: seq<string>,
    qrTokenCurrent: string,
    qrTokenExpiresAt: Option<int>,
    settings: CampaignSettings)

  datatype SessionStatus = InProgress | Submitted | Cancelled | Expired

  datatype RedFlag = RedFlag(title: string, detail: string)

  /** One worker's pass through the questionnaire. */
  datatype Session = Session(
    id: string,
    campaignId: string,
    status: SessionStatus,
    startedAt: int,
    lastActivityAt: int,
    submittedAt: Option<int>,
    reviewed: Option<bool>,
    reviewedAt: Option<int>,
    workerId: Option<string>,
    workerFirstname: Option<string>,
    workerLastname: Option<string>,
    workerIdLast4: Option<string>,
    dob: Option<string>,
    workerEmail: Option<string>,
    redFlagScore: int,
    redFlags: seq<RedFlag>,
    answers: AnswerMap,
    triage: Option<TriageAnalysis>)

  /**
   The fields a partial update supplies. `None` leaves the field alone; on an optional field,
   `Some(None)` is a supplied `undefined`, which clears it.
   */
  datatype SessionUpdate = SessionUpdate(
    id: Option<string>,
    campaignId: Option<string>,
    status: Option<SessionStatus>,
    startedAt: Option<int>,
    lastActivityAt: Option<int>,
    submittedAt: Option<Option<int>>,
    reviewed: Option<Option<bool>>,
    reviewedAt: Option<Option<int>>,
    workerId: Option<Option<string>>,
    workerFirstname: Option<Option<string>>,
    workerLastname: Option<Option<string>>,
    workerIdLast4: Option<Option<string>>,
    dob: Option<Option<string>>,
    workerEmail: Option<Option<string>>,
    redFlagScore: Option<int>,
    redFlags: Option<seq<RedFlag>>,
    answers: Option<AnswerMap>,
    triage: Option<Option<TriageAnalysis>>)

  /** A generated report; its free-form summary and HTML body are not modelled. */
  datatype Report = Report(id: string, sessionId: string, campaignId: string, createdAt: int)
}

=== FILE: seqs.dfy ===
/** Sequence helpers with the meaning of JavaScript's `findIndex`, `find`, `filter` and `some`. */
module Seqs {
  import opened Wrappers

  /** `xs.findIndex(p)`, with "not found" as `None`. */
  function FirstIndex<T>(xs: seq<T>, p: T -> bool): (r: Option<nat>)
    ensures r.Some? ==> r.value < |xs| && p(xs[r.value]) && forall j :: 0 <= j < r.value ==> !p(xs[j])
    ensures r.None? ==> forall j :: 0 <= j < |xs| ==> !p(xs[j])
    decreases |xs|
  {
    if |xs| == 0 then None
    else if p(xs[0]) then Some(0)
    else match FirstIndex(xs[1..], p)
      case None => None
      case Some(k) => Some(k + 1)
  }

  /** The first match is where a match stands with none before it. */
  lemma {:induction false} FirstIndexUnique<T>(xs: seq<T>, p: T -> bool, i: nat)
    requires i < |xs| && p(xs[i]) && forall j :: 0 <= j < i ==> !p(xs[j])
    ensures FirstIndex(xs, p) == Some(i)
    decreases i
  {
    if i > 0 {
      FirstIndexUnique(xs[1..], p, i - 1);
    }
  }

  /** `xs.find(p)`. */
  function Find<T>(xs: seq<T>, p: T -> bool): Option<T>
  {
    match FirstIndex(xs, p)
    case None => None
    case Some(i) => Some(xs[i])
  }

  /** `xs.filter(p)`. */
  function Filter<T>(xs: seq<T>, p: T -> bool): (r: seq<T>)
    ensures |r| <= |xs|
    decreases |xs|
  {
    if |xs| == 0 then []
    else if p(xs[0]) then [xs[0]] + Filter(xs[1..], p)
    else Filter(xs[1..], p)
  }

  /** `xs` is `ys` with some elements left out and the rest kept in order. */
  predicate IsSubsequence<T(==)>(xs: seq<T>, ys: seq<T>)
    decreases |ys|
  {
    |xs| == 0 || (|ys| > 0 && ((xs[0] == ys[0] && IsSubsequence(xs[1..], ys[1..])) || IsSubsequence(xs, ys[1..])))
  }

  /** An element survives the filter exactly when it was there and passes the test. */
  lemma {:induction false} FilterMembership<T>(xs: seq<T>, p: T -> bool, x: T)
    ensures x in Filter(xs, p) <==> x in xs && p(x)
    decreases |xs|
  {
    if |xs| > 0 {
      FilterMembership(xs[1..], p, x);
      assert x in xs <==> x == xs[0] || x in xs[1..];
    }
  }

  /** The filter keeps the order of what it keeps. */
  lemma {:induction false} FilterIsSubsequence<T>(xs: seq<T>, p: T -> bool)
    ensures IsSubsequence(Filter(xs, p), xs)
    decreases |xs|
  {
    if |xs| > 0 {
      FilterIsSubsequence(xs[1..], p);
      var r := Filter(xs, p);
      if p(xs[0]) {
        assert r[0] == xs[0] && r[1..] == Filter(xs[1..], p);
      } else if |r| > 0 {
        assert r == Filter(xs[1..], p);
      }
    }
  }

  /** What a filter keeps: exactly the passing elements, in their order. */
  lemma FilterSpec<T>(xs: seq<T>, p: T -> bool)
    ensures forall x :: x in Filter(xs, p) <==> x in xs && p(x)
    ensures IsSubsequence(Filter(xs, p), xs)
  {
    forall x
      ensures x in Filter(xs, p) <==> x in xs && p(x)
    {
      FilterMembership(xs, p, x);
    }
    FilterIsSubsequence(xs, p);
  }

  /** The filter keeps every passing element as often as it occurs, and no other. */
  lemma {:induction false} FilterMultiset<T>(xs: seq<T>, p: T -> bool)
    ensures forall x :: multiset(Filter(xs, p))[x] == if p(x) then multiset(xs)[x] else 0
    decreases |xs|
  {
    if |xs| > 0 {
      FilterMultiset(xs[1..], p);
      assert xs == [xs[0]] + xs[1..];
      assert multiset(xs) == multiset{xs[0]} + multiset(xs[1..]);
    }
  }

  /**
   Two optional filters in a row keep exactly the elements passing `keep`, the conjunction of
   the enabled tests, as often as they occur and in their order.
   */
  lemma TwoStageFilter<T>(xs: seq<T>, useP: bool, p: T -> bool, useQ: bool, q: T -> bool, keep: T -> bool)
    requires forall x :: keep(x) == ((!useP || p(x)) && (!useQ || q(x)))
    ensures var found := if useP then Filter(xs, p) else xs;
      var shown := if useQ then Filter(found, q) else found;
      && (forall x :: (multiset(shown)[x] == if keep(x) then multiset(xs)[x] else 0))
      && IsSubsequence(shown, xs)
  {
    var found := if useP then Filter(xs, p) else xs;
    FilterIsSubsequence(xs, p);
    FilterIsSubsequence(found, q);
    FilterMultiset(xs, p);
    FilterMultiset(found, q);
    SubsequenceRefl(xs);
    if useQ {
      SubsequenceTrans(Filter(found, q), found, xs);
    }
  }

  /** A filter no element passes leaves nothing. */
  lemma {:induction false} FilterNone<T>(xs: seq<T>, p: T -> bool)
    requires forall i :: 0 <= i < |xs| ==> !p(xs[i])
    ensures Filter(xs, p) == []
    decreases |xs|
  {
    if |xs| > 0 {
      FilterNone(xs[1..], p);
    }
  }

  /** A filter every element passes changes nothing. */
  lemma {:induction false} FilterAll<T>(xs: seq<T>, p: T -> bool)
    requires forall i :: 0 <= i < |xs| ==> p(xs[i])
    ensures Filter(xs, p) == xs
    decreases |xs|
  {
    if |xs| > 0 {
      FilterAll(xs[1..], p);
      assert [xs[0]] + xs[1..] == xs;
    }
  }

  /** Filtering distributes over concatenation. */
  lemma {:induction false} FilterAppend<T>(xs: seq<T>, ys: seq<T>, p: T -> bool)
    ensures Filter(xs + ys, p) == Filter(xs, p) + Filter(ys, p)
    decreases |xs|
  {
    if |xs| == 0 {
      assert xs + ys == ys;
    } else {
      FilterAppend(xs[1..], ys, p);
      assert (xs + ys)[1..] == xs[1..] + ys;
    }
  }

  lemma {:induction false} SubsequenceRefl<T>(xs: seq<T>)
    ensures IsSubsequence(xs, xs)
    decreases |xs|
  {
    if |xs| > 0 {
      SubsequenceRefl(xs[1..]);
    }
  }

  /** Leaving out elements twice is leaving them out once. */
  lemma {:induction false} SubsequenceTrans<T>(xs: seq<T>, ys: seq<T>, zs: seq<T>)
    requires IsSubsequence(xs, ys) && IsSubsequence(ys, zs)
    ensures IsSubsequence(xs, zs)
    decreases |zs|
  {
    if |xs| > 0 {
      if IsSubsequence(ys, zs[1..]) {
        SubsequenceTrans(xs, ys, zs[1..]);
      } else if xs[0] == ys[0] && IsSubsequence(xs[1..], ys[1..]) {
        SubsequenceTrans(xs[1..], ys[1..], zs[1..]);
      } else {
        SubsequenceTrans(xs, ys[1..], zs[1..]);
      }
    }
  }

  /** `xs.some(p)`. */
  predicate Any<T>(xs: seq<T>, p: T -> bool)
    decreases |xs|
  {
    |xs| > 0 && (p(xs[0]) || Any(xs[1..], p))
  }

  lemma {:induction false} AnyExists<T>(xs: seq<T>, p: T -> bool)
    ensures Any(xs, p) <==> exists i :: 0 <= i < |xs| && p(xs[i])
    decreases |xs|
  {
    if |xs| > 0 {
      AnyExists(xs[1..], p);
      if i :| 0 <= i < |xs| && p(xs[i]) {
        if i > 0 {
          assert xs[1..][i - 1] == xs[i];
        }
      }
      if Any(xs[1..], p) {
        var j :| 0 <= j < |xs[1..]| && p(xs[1..][j]);
        assert xs[j + 1] == xs[1..][j];
      }
    }
  }
}

=== FILE: start_route.dfy ===
/**
 Opening a session from a QR code: the token is first read as a stateless, unsigned token
 `{c: campaign, e: expiry}`; when that does not settle it, the store's campaign and its
 current token decide. Decoding the token (base64url, JSON) is outside the model: its outcome
 arrives as `decoded`, `None` when the token does not decode.
 */
module StartRoute {
  import opened Wrappers
  import opened Records
  import opened Store

  /** The fields of a decoded token; either may be missing. */
  datatype Decoded = Decoded(c: Option<string>, e: Option<int>)

  datatype Rejection =
    | QrExpired            // the decoded token's own expiry has passed
    | CampaignNotFound
    | InvalidToken
    | StoredTokenExpired   // the campaign's stored token expiry has passed

  datatype Response = SessionStarted(sessionId: string) | Error(status: nat, reason: Rejection)

  function StatusOf(reason: Rejection): nat
  {
    match reason
    case CampaignNotFound => 404
    case _ => 403
  }

  /** The decoded token names this campaign and has not expired. */
  predicate StatelessValid(decoded: Option<Decoded>, campaignId: string, now: int)
  {
    decoded.Some? && decoded.value.c == Some(campaignId) && decoded.value.e.Some? && decoded.value.e.value > now
  }

  /** The decoded token carries an expiry that has passed. */
  predicate StatelessExpired(decoded: Option<Decoded>, now: int)
  {
    decoded.Some? && decoded.value.e.Some? && decoded.value.e.value <= now
  }

  function Reject(db: Db, reason: Rejection): (Db, Response)
  {
    (db, Error(StatusOf(reason), reason))
  }

  function Open(db: Db, campaignId: string, uuid: string, now: int): (Db, Response)
  {
    var (db', s) := CreateSession(db, campaignId, uuid, now);
    (db', SessionStarted(s.id))
  }

  /** The store checks: the campaign must exist, the token must be its current one or the demo token, and not expired. */
  function StoreCheck(db: Db, campaignId: string, token: string, uuid: string, now: int): (Db, Response)
  {
    match GetCampaign(db, campaignId)
    case None => Reject(db, CampaignNotFound)
    case Some(campaign) =>
      if campaign.qrTokenCurrent != token && token != DemoToken then Reject(db, InvalidToken)
      else if campaign.qrTokenExpiresAt.Some? && campaign.qrTokenExpiresAt.value < now then Reject(db, StoredTokenExpired)
      else Open(db, campaignId, uuid, now)
  }

  /** `POST /api/session/start`. */
  function StartSession(db: Db, campaignId: string, token: string, decoded: Option<Decoded>, uuid: string, now: int)
    : (r: (Db, Response))
    ensures r.1.SessionStarted? ==>
      && r.1.sessionId == uuid
      && |r.0.sessions| == |db.sessions| + 1
      && r.0.sessions == db.sessions + [r.0.sessions[|r.0.sessions| - 1]]
      && r.0.sessions[|r.0.sessions| - 1].id == uuid
      && r.0.sessions[|r.0.sessions| - 1].campaignId == campaignId
      && r.0.sessions[|r.0.sessions| - 1].status == InProgress
      && r.0.campaigns == db.campaigns && r.0.reports == db.reports
    ensures r.1.Error? ==> r.0 == db && r.1.status == StatusOf(r.1.reason)
  {
    if StatelessValid(decoded, campaignId, now) then Open(db, campaignId, uuid, now)
    else if StatelessExpired(decoded, now) then Reject(db, QrExpired)
    else StoreCheck(db, campaignId, token, uuid, now)
  }

  /** A live token for this campaign opens a session without asking the store, even for an unknown campaign. */
  lemma StatelessAccepts(db: Db, campaignId: string, token: string, d: Decoded, uuid: string, now: int)
    requires d.c == Some(campaignId) && d.e.Some? && d.e.value > now
    ensures StartSession(db, campaignId, token, Some(d), uuid, now).1 == SessionStarted(uuid)
  {
  }

  /** A token whose own expiry has passed is refused with 403, whatever campaign it names. */
  lemma ExpiredTokenRefused(db: Db, campaignId: string, token: string, d: Decoded, uuid: string, now: int)
    requires d.e.Some? && d.e.value <= now
    ensures StartSession(db, campaignId, token, Some(d), uuid, now) == (db, Error(403, QrExpired))
  {
  }

  /**
   The store decides for tokens that do not decode and for live tokens of another campaign
   (or without an expiry).
   */
  lemma FallsThroughToStore(db: Db, campaignId: string, token: string, decoded: Option<Decoded>, uuid: string, now: int)
    requires decoded.None? || decoded.value.e.None? || (decoded.value.c != Some(campaignId) && decoded.value.e.value > now)
    ensures StartSession(db, campaignId, token, decoded, uuid, now) == StoreCheck(db, campaignId, token, uuid, now)
  {
  }

  /** In the store checks, an unknown campaign is a 404. */
  lemma UnknownCampaignNotFound(db: Db, campaignId: string, token: string, uuid: string, now: int)
    requires GetCampaign(db, campaignId).None?
    ensures StoreCheck(db, campaignId, token, uuid, now) == (db, Error(404, CampaignNotFound))
  {
  }

  /** In the store checks, a token that is neither current nor the demo token is a 403. */
  lemma WrongTokenRefused(db: Db, campaignId: string, token: string, uuid: string, now: int)
    requires GetCampaign(db, campaignId).Some?
    requires GetCampaign(db, campaignId).value.qrTokenCurrent != token && token != DemoToken
    ensures StoreCheck(db, campaignId, token, uuid, now) == (db, Error(403, InvalidToken))
  {
  }

  /** In the store checks, a campaign whose stored expiry is before now is a 403. */
  lemma StoredExpiryRefused(db: Db, campaignId: string, token: string, uuid: string, now: int)
    requires GetCampaign(db, campaignId).Some?
    requires GetCampaign(db, campaignId).value.qrTokenCurrent == token || token == DemoToken
    requires GetCampaign(db, campaignId).value.qrTokenExpiresAt.Some?
    requires GetCampaign(db, campaignId).value.qrTokenExpiresAt.value < now
    ensures StoreCheck(db, campaignId, token, uuid, now) == (db, Error(403, StoredTokenExpired))
  {
  }

  /**
   In the store checks, an existing campaign, its current token or the demo token, and a stored
   expiry that is absent or not before now open a session.
   */
  lemma StoreAccepts(db: Db, campaignId: string, token: string, uuid: string, now: int)
    requires GetCampaign(db, campaignId).Some?
    requires GetCampaign(db, campaignId).value.qrTokenCurrent == token || token == DemoToken
    requires GetCampaign(db, campaignId).value.qrTokenExpiresAt.None?
          || GetCampaign(db, campaignId).value.qrTokenExpiresAt.value >= now
    ensures StoreCheck(db, campaignId, token, uuid, now).1 == SessionStarted(uuid)
  {
  }

  /**
   A freshly rotated token opens a session at any time up to its 12-hour expiry, while any
   other token but the demo one is then refused.
   */
  lemma RotatedTokenOpens(db: Db, campaignId: string, uuid: string, rotatedAt: int, other: string, sid: string, now: int)
    requires GetCampaign(db, campaignId).Some?
    requires now <= rotatedAt + 12 * HourMs
    ensures var (db', token) := RotateCampaignToken(db, campaignId, uuid, rotatedAt);
      && StartSession(db', campaignId, token.value, None, sid, now).1 == SessionStarted(sid)
      && (other != token.value && other != DemoToken ==>
            StartSession(db', campaignId, other, None, sid, now) == (db', Error(403, InvalidToken)))
  {
    RotateThenGet(db, campaignId, uuid, rotatedAt);
  }

  /**
   After a rotation the demo token keeps opening sessions of an existing campaign until the rotated
   token's 12-hour expiry, and is refused as expired from then on.
   */
  lemma DemoTokenAfterRotation(db: Db, campaignId: string, uuid: string, rotatedAt: int, sid: string, now: int)
    requires GetCampaign(db, campaignId).Some?
    ensures var db' := RotateCampaignToken(db, campaignId, uuid, rotatedAt).0;
      && (now <= rotatedAt + 12 * HourMs ==>
            StartSession(db', campaignId, DemoToken, None, sid, now).1 == SessionStarted(sid))
      && (now > rotatedAt + 12 * HourMs ==>
            StartSession(db', campaignId, DemoToken, None, sid, now) == (db', Error(403, StoredTokenExpired)))
  {
    RotateThenGet(db, campaignId, uuid, rotatedAt);
  }

  /** A fresh store opens demo-campaign sessions with the demo token for 24 hours. */
  lemma SeedOpensDemo(seededAt: int, sid: string, now: int)
    requires now <= seededAt + 24 * HourMs
    ensures StartSession(Seed(seededAt), DemoCampaignId, DemoToken, None, sid, now).1 == SessionStarted(sid)
  {
    SeedKnowsDemo(seededAt);
  }
}

=== FILE: store.dfy ===
/**
 The in-memory database: campaigns, sessions and reports in insertion order. The clock and the
 random UUIDs the store draws are parameters (`now`, `uuid`).
 */
module Store {
  import opened Wrappers
  import opened Answers
  import opened Records
  import opened Seqs

  const HourMs := 60 * 60 * 1000
  const DemoCampaignId := "demo-campaign"
  const DemoToken := "token123"

  datatype Db = Db(campaigns: seq<Campaign>, sessions: seq<Session>, reports: seq<Report>)

  /** The campaign every fresh store holds; its token is valid for 24 hours from `now`. */
  function DemoCampaign(now: int): Campaign
  {
    Campaign(
      DemoCampaignId, "TechSolutions S.L.", "Unidad Móvil MAD-01", Some("Polígono Alcobendas"),
      ["medico@prevencion.com"], DemoToken, Some(now + 24 * HourMs),
      CampaignSettings(true, Download, 15))
  }

  /** A fresh store. */
  function Seed(now: int): (db: Db)
    ensures |db.campaigns| == 1 && db.sessions == [] && db.reports == []
    ensures db.campaigns[0].id == DemoCampaignId && db.campaigns[0].qrTokenCurrent == DemoToken
    ensures db.campaigns[0].qrTokenExpiresAt == Some(now + 24 * HourMs)
  {
    Db([DemoCampaign(now)], [], [])
  }

  /** The first campaign with this id. */
  function GetCampaign(db: Db, id: string): (r: Option<Campaign>)
    ensures r.Some? ==>
      exists i :: (0 <= i < |db.campaigns| && r.value == db.campaigns[i] && r.value.id == id
                   && forall j :: 0 <= j < i ==> db.campaigns[j].id != id)
    ensures r.None? <==> forall c :: c in db.campaigns ==> c.id != id
  {
    Find(db.campaigns, (c: Campaign) => c.id == id)
  }

  /** The first campaign whose current token is `token`. */
  function GetCampaignByToken(db: Db, token: string): (r: Option<Campaign>)
    ensures r.Some? ==>
      exists i :: (0 <= i < |db.campaigns| && r.value == db.campaigns[i]
                   && r.value.qrTokenCurrent == token
                   && forall j :: 0 <= j < i ==> db.campaigns[j].qrTokenCurrent != token)
    ensures r.None? <==> forall c :: c in db.campaigns ==> c.qrTokenCurrent != token
  {
    Find(db.campaigns, (c: Campaign) => c.qrTokenCurrent == token)
  }

  /** The first eight characters of a fresh UUID. */
  function TokenOf(uuid: string): (t: string)
    ensures t <= uuid && |t| == if |uuid| < 8 then |uuid| else 8
  {
    if |uuid| < 8 then uuid else uuid[..8]
  }

  /**
   A new QR token for a campaign, valid for 12 hours. An unknown campaign gives no token and
   leaves the store as it was.
   */
  function RotateCampaignToken(db: Db, campaignId: string, uuid: string, now: int): (r: (Db, Option<string>))
    ensures FirstIndex(db.campaigns, (c: Campaign) => c.id == campaignId).None? ==> r == (db, None)
    ensures FirstIndex(db.campaigns, (c: Campaign) => c.id == campaignId).Some? ==>
      var i := FirstIndex(db.campaigns, (c: Campaign) => c.id == campaignId).value;
      && r.1 == Some(TokenOf(uuid))
      && r.0.sessions == db.sessions && r.0.reports == db.reports
      && |r.0.campaigns| == |db.campaigns|
      && r.0.campaigns[i] == db.campaigns[i].(qrTokenCurrent := TokenOf(uuid), qrTokenExpiresAt := Some(now + 12 * HourMs))
      && forall j :: 0 <= j < |db.campaigns| && j != i ==> r.0.campaigns[j] == db.campaigns[j]
  {
    match FirstIndex(db.campaigns, (c: Campaign) => c.id == campaignId)
    case None => (db, None)
    case Some(i) =>
      var c := db.campaigns[i].(qrTokenCurrent := TokenOf(uuid), qrTokenExpiresAt := Some(now + 12 * HourMs));
      (db.(campaigns := db.campaigns[i := c]), Some(TokenOf(uuid)))
  }

  /** After a rotation the campaign is found with its new token and the 12-hour expiry. */
  lemma RotateThenGet(db: Db, campaignId: string, uuid: string, now: int)
    requires GetCampaign(db, campaignId).Some?
    ensures var (db', token) := RotateCampaignToken(db, campaignId, uuid, now);
      && token == Some(TokenOf(uuid))
      && GetCampaign(db', campaignId) == Some(GetCampaign(db, campaignId).value.(
           qrTokenCurrent := TokenOf(uuid), qrTokenExpiresAt := Some(now + 12 * HourMs)))
  {
    var i := FirstIndex(db.campaigns, (c: Campaign) => c.id == campaignId).value;
    var db' := RotateCampaignToken(db, campaignId, uuid, now).0;
    assert FirstIndex(db'.campaigns, (c: Campaign) => c.id == campaignId) == Some(i) by {
      assert forall j :: 0 <= j < i ==> db'.campaigns[j].id == db.campaigns[j].id;
      FirstIndexUnique(db'.campaigns, (c: Campaign) => c.id == campaignId, i);
    }
  }

  /** A new session, in progress, with no score, flags or answers, appended to the store. */
  function CreateSession(db: Db, campaignId: string, uuid: string, now: int): (r: (Db, Session))
    ensures r.0.sessions == db.sessions + [r.1]
    ensures r.0.campaigns == db.campaigns && r.0.reports == db.reports
    ensures r.1.id == uuid && r.1.campaignId == campaignId && r.1.status == InProgress
    ensures r.1.startedAt == now && r.1.lastActivityAt == now
    ensures r.1.redFlagScore == 0 && r.1.redFlags == [] && r.1.answers == map[]
    ensures r.1.submittedAt.None? && r.1.workerId.None? && r.1.triage.None?
  {
    var s := Session(uuid, campaignId, InProgress, now, now, None, None, None, None, None, None, None, None, None,
                     0, [], map[], None);
    (db.(sessions := db.sessions + [s]), s)
  }

  /** The first session with this id: the one an update to that id changes. */
  function GetSession(db: Db, id: string): (r: Option<Session>)
    ensures r.Some? ==>
      exists i :: (0 <= i < |db.sessions| && r.value == db.sessions[i] && r.value.id == id
                   && forall j :: 0 <= j < i ==> db.sessions[j].id != id)
    ensures r.None? <==> forall s :: s in db.sessions ==> s.id != id
  {
    Find(db.sessions, (s: Session) => s.id == id)
  }

  /** A session created under an id no other session has is found under that id. */
  lemma CreateThenGet(db: Db, campaignId: string, uuid: string, now: int)
    requires GetSession(db, uuid).None?
    ensures GetSession(CreateSession(db, campaignId, uuid, now).0, uuid) == Some(CreateSession(db, campaignId, uuid, now).1)
  {
    var (db', s) := CreateSession(db, campaignId, uuid, now);
    FirstIndexUnique(db'.sessions, (x: Session) => x.id == uuid, |db.sessions|);
  }

  /** The session `s` with the supplied fields of `u` written over it (`{...s, ...u}`). */
  function Apply(s: Session, u: SessionUpdate): Session
  {
    Session(
      u.id.GetOr(s.id), u.campaignId.GetOr(s.campaignId), u.status.GetOr(s.status),
      u.startedAt.GetOr(s.startedAt), u.lastActivityAt.GetOr(s.lastActivityAt),
      u.submittedAt.GetOr(s.submittedAt), u.reviewed.GetOr(s.reviewed), u.reviewedAt.GetOr(s.reviewedAt),
      u.workerId.GetOr(s.workerId), u.workerFirstname.GetOr(s.workerFirstname),
      u.workerLastname.GetOr(s.workerLastname), u.workerIdLast4.GetOr(s.workerIdLast4),
      u.dob.GetOr(s.dob), u.workerEmail.GetOr(s.workerEmail),
      u.redFlagScore.GetOr(s.redFlagScore), u.redFlags.GetOr(s.redFlags), u.answers.GetOr(s.answers),
      u.triage.GetOr(s.triage))
  }

  /** `r` takes a field from the update exactly where the update supplies it, and from `s` elsewhere. */
  predicate MergedFrom(r: Session, s: Session, u: SessionUpdate)
  {
    && (if u.id.Some? then r.id == u.id.value else r.id == s.id)
    && (if u.campaignId.Some? then r.campaignId == u.campaignId.value else r.campaignId == s.campaignId)
    && (if u.status.Some? then r.status == u.status.value else r.status == s.status)
    && (if u.startedAt.Some? then r.startedAt == u.startedAt.value else r.startedAt == s.startedAt)
    && (if u.submittedAt.Some? then r.submittedAt == u.submittedAt.value else r.submittedAt == s.submittedAt)
    && (if u.reviewed.Some? then r.reviewed == u.reviewed.value else r.reviewed == s.reviewed)
    && (if u.reviewedAt.Some? then r.reviewedAt == u.reviewedAt.value else r.reviewedAt == s.reviewedAt)
    && (if u.workerId.Some? then r.workerId == u.workerId.value else r.workerId == s.workerId)
    && (if u.workerFirstname.Some? then r.workerFirstname == u.workerFirstname.value else r.workerFirstname == s.workerFirstname)
    && (if u.workerLastname.Some? then r.workerLastname == u.workerLastname.value else r.workerLastname == s.workerLastname)
    && (if u.workerIdLast4.Some? then r.workerIdLast4 == u.workerIdLast4.value else r.workerIdLast4 == s.workerIdLast4)
    && (if u.dob.Some? then r.dob == u.dob.value else r.dob == s.dob)
    && (if u.workerEmail.Some? then r.workerEmail == u.workerEmail.value else r.workerEmail == s.workerEmail)
    && (if u.redFlagScore.Some? then r.redFlagScore == u.redFlagScore.value else r.redFlagScore == s.redFlagScore)
    && (if u.redFlags.Some? then r.redFlags == u.redFlags.value else r.redFlags == s.redFlags)
    && (if u.answers.Some? then r.answers == u.answers.value else r.answers == s.answers)
    && (if u.triage.Some? then r.triage == u.triage.value else r.triage == s.triage)
  }

  /**
   Merge an update into the first session with this id; the activity time is always `now`,
   even when the update supplies one. An unknown id changes nothing.
   */
  function UpdateSession(db: Db, id: string, u: SessionUpdate, now: int): (r: (Db, Option<Session>))
    ensures FirstIndex(db.sessions, (s: Session) => s.id == id).None? ==> r == (db, None)
    ensures FirstIndex(db.sessions, (s: Session) => s.id == id).Some? ==>
      var i := FirstIndex(db.sessions, (s: Session) => s.id == id).value;
      && r.1.Some?
      && MergedFrom(r.1.value, db.sessions[i], u)
      && r.1.value.lastActivityAt == now
      && |r.0.sessions| == |db.sessions| && r.0.sessions[i] == r.1.value
      && (forall j :: 0 <= j < |db.sessions| && j != i ==> r.0.sessions[j] == db.sessions[j])
      && r.0.campaigns == db.campaigns && r.0.reports == db.reports
  {
    match FirstIndex(db.sessions, (s: Session) => s.id == id)
    case None => (db, None)
    case Some(i) =>
      var s := Apply(db.sessions[i], u).(lastActivityAt := now);
      (db.(sessions := db.sessions[i := s]), Some(s))
  }

  /** An update finds exactly the session the lookup finds, and merges into it. */
  lemma UpdateMergesFoundSession(db: Db, id: string, u: SessionUpdate, now: int)
    ensures UpdateSession(db, id, u, now).1.None? <==> GetSession(db, id).None?
    ensures GetSession(db, id).Some? ==>
      && MergedFrom(UpdateSession(db, id, u, now).1.value, GetSession(db, id).value, u)
      && UpdateSession(db, id, u, now).1.value.lastActivityAt == now
  {
  }

  /** Applying the same update twice at the same instant is applying it once. */
  lemma UpdateIdempotent(db: Db, id: string, u: SessionUpdate, now: int)
    requires u.id.None?
    ensures var db1 := UpdateSession(db, id, u, now).0;
      UpdateSession(db1, id, u, now) == (db1, UpdateSession(db, id, u, now).1)
  {
    var p := (s: Session) => s.id == id;
    match FirstIndex(db.sessions, p)
    case None =>
    case Some(i) =>
      var db1 := UpdateSession(db, id, u, now).0;
      assert forall j :: 0 <= j < |db.sessions| ==> db1.sessions[j].id == db.sessions[j].id;
      FirstIndexUnique(db1.sessions, p, i);
      assert db1.sessions[i := db1.sessions[i]] == db1.sessions;
  }

  /** The sessions of one campaign, in the order they were created. */
  function GetSessionsByCampaign(db: Db, campaignId: string): (r: seq<Session>)
    ensures forall s :: s in r <==> s in db.sessions && s.campaignId == campaignId
    ensures forall s :: multiset(r)[s] == if s.campaignId == campaignId then multiset(db.sessions)[s] else 0
    ensures IsSubsequence(r, db.sessions)
  {
    var p := (s: Session) => s.campaignId == campaignId;
    FilterSpec(db.sessions, p);
    FilterMultiset(db.sessions, p);
    Filter(db.sessions, p)
  }

  /** A new session shows up last in its campaign's list and in no other. */
  lemma CreateThenList(db: Db, campaignId: string, other: string, uuid: string, now: int)
    requires other != campaignId
    ensures var (db', s) := CreateSession(db, campaignId, uuid, now);
      && GetSessionsByCampaign(db', campaignId) == GetSessionsByCampaign(db, campaignId) + [s]
      && GetSessionsByCampaign(db', other) == GetSessionsByCampaign(db, other)
  {
    var (db', s) := CreateSession(db, campaignId, uuid, now);
    FilterAppend(db.sessions, [s], (x: Session) => x.campaignId == campaignId);
    FilterAppend(db.sessions, [s], (x: Session) => x.campaignId == other);
  }

  function CreateReport(db: Db, report: Report): (db': Db)
    ensures db'.reports == db.reports + [report]
    ensures db'.campaigns == db.campaigns && db'.sessions == db.sessions
  {
    db.(reports := db.reports + [report])
  }

  /** The reports of one campaign, in the order they were created. */
  function GetReports(db: Db, campaignId: string): (r: seq<Report>)
    ensures forall x :: x in r <==> x in db.reports && x.campaignId == campaignId
    ensures forall x :: multiset(r)[x] == if x.campaignId == campaignId then multiset(db.reports)[x] else 0
    ensures IsSubsequence(r, db.reports)
  {
    var p := (x: Report) => x.campaignId == campaignId;
    FilterSpec(db.reports, p);
    FilterMultiset(db.reports, p);
    Filter(db.reports, p)
  }

  /** A stored report is listed last for its campaign. */
  lemma CreateThenGetReports(db: Db, report: Report)
    ensures GetReports(CreateReport(db, report), report.campaignId) == GetReports(db, report.campaignId) + [report]
  {
    FilterAppend(db.reports, [report], (x: Report) => x.campaignId == report.campaignId);
  }

  /** A fresh store knows the demo campaign by its id and by the demo token. */
  lemma SeedKnowsDemo(now: int)
    ensures GetCampaign(Seed(now), DemoCampaignId) == Some(DemoCampaign(now))
    ensures GetCampaignByToken(Seed(now), DemoToken) == Some(DemoCampaign(now))
    ensures GetSessionsByCampaign(Seed(now), DemoCampaignId) == []
  {
  }
}

=== FILE: strings.dfy ===
/** Optional values: `undefined` results and optional record fields of the application. */
module Wrappers {

  datatype Option<+T> = None | Some(value: T) {

    /** The carried value, or `default` when there is none (the JavaScript `x ?? default`). */
    function GetOr(default: T): T
    {
      match this
      case Some(v) => v
      case None => default
    }
  }
}

/**
 String operations with the meaning of the JavaScript built-ins the application calls:
 `includes`, `startsWith`, `toLowerCase`, `trim`, `split(" ")` and `join(" ")`.
 */
module Strings {

  /** `s.includes(sub)` on strings: `sub` occurs as a contiguous block of `s`. */
  predicate Contains(s: string, sub: string)
    decreases |s|
  {
    sub <= s || (|s| > 0 && Contains(s[1..], sub))
  }

  /** `sub` occurs in `s` starting at position `i`. */
  predicate OccursAt(s: string, sub: string, i: int)
  {
    0 <= i <= |s| - |sub| && s[i..i + |sub|] == sub
  }

  /** The recursive search finds exactly the positional occurrences of `sub` in `s`. */
  lemma {:induction false} ContainsAt(s: string, sub: string)
    ensures Contains(s, sub) <==> exists i :: OccursAt(s, sub, i)
    decreases |s|
  {
    if sub <= s {
      assert OccursAt(s, sub, 0);
    } else if |s| == 0 {
    } else {
      ContainsAt(s[1..], sub);
      if Contains(s[1..], sub) {
        var j :| OccursAt(s[1..], sub, j);
        assert s[j + 1..j + 1 + |sub|] == s[1..][j..j + |sub|];
        assert OccursAt(s, sub, j + 1);
      }
      if i :| OccursAt(s, sub, i) {
        assert s[1..][i - 1..i - 1 + |sub|] == s[i..i + |sub|];
        assert OccursAt(s[1..], sub, i - 1);
      }
    }
  }

  /** `s.startsWith(p)`. */
  predicate StartsWith(s: string, p: string)
  {
    p <= s
  }

  /** `toLowerCase` restricted to ASCII: A-Z become a-z, every other character is kept. */
  function LowerChar(c: char): char
  {
    if 'A' <= c <= 'Z' then (c as int + 32) as char else c
  }

  function ToLower(s: string): (r: string)
    ensures |r| == |s|
    ensures forall i :: 0 <= i < |s| ==> r[i] == LowerChar(s[i])
  {
    seq(|s|, i requires 0 <= i < |s| => LowerChar(s[i]))
  }

  /** The characters `trim` removes: ECMAScript WhiteSpace and LineTerminator code points. */
  predicate IsWhitespace(c: char)
  {
    || c == ' ' || c == '\t' || c == '\n' || c == '\r' || c == '\U{0B}' || c == '\U{0C}'
    || c == '\U{A0}' || c == '\U{1680}' || ('\U{2000}' <= c <= '\U{200A}')
    || c == '\U{2028}' || c == '\U{2029}' || c == '\U{202F}' || c == '\U{205F}'
    || c == '\U{3000}' || c == '\U{FEFF}'
  }

  predicate AllWhitespace(s: string)
  {
    forall i :: 0 <= i < |s| ==> IsWhitespace(s[i])
  }

  function TrimStart(s: string): string
    decreases |s|
  {
    if |s| > 0 && IsWhitespace(s[0]) then TrimStart(s[1..]) else s
  }

  function TrimEnd(s: string): string
    decreases |s|
  {
    if |s| > 0 && IsWhitespace(s[|s| - 1]) then TrimEnd(s[..|s| - 1]) else s
  }

  /** `s.trim()`. */
  function Trim(s: string): string
  {
    TrimEnd(TrimStart(s))
  }

  lemma {:induction false} TrimStartEmpty(s: string)
    ensures TrimStart(s) == "" <==> AllWhitespace(s)
    ensures TrimStart(s) != "" ==> !IsWhitespace(TrimStart(s)[0])
    decreases |s|
  {
    if |s| > 0 && IsWhitespace(s[0]) {
      TrimStartEmpty(s[1..]);
      if AllWhitespace(s[1..]) {
        forall i | 0 <= i < |s|
          ensures IsWhitespace(s[i])
        {
          if i > 0 {
            assert s[i] == s[1..][i - 1];
          }
        }
      }
      if AllWhitespace(s) {
        forall i | 0 <= i < |s[1..]|
          ensures IsWhitespace(s[1..][i])
        {
          assert s[1..][i] == s[i + 1];
        }
      }
    }
  }

  lemma {:induction false} TrimEndKeepsHead(s: string)
    requires |s| > 0 && !IsWhitespace(s[0])
    ensures |TrimEnd(s)| > 0 && TrimEnd(s)[0] == s[0]
    decreases |s|
  {
    if IsWhitespace(s[|s| - 1]) {
      TrimEndKeepsHead(s[..|s| - 1]);
    }
  }

  /** A string trims to nothing exactly when every character of it is whitespace. */
  lemma TrimEmptyIffBlank(s: string)
    ensures Trim(s) == "" <==> AllWhitespace(s)
  {
    TrimStartEmpty(s);
    if TrimStart(s) != "" {
      TrimEndKeepsHead(TrimStart(s));
    }
  }

  /** `s.split(sep)` for a one-character separator: empty fields are kept. */
  function Split(s: string, sep: char): (parts: seq<string>)
    ensures |parts| >= 1
    decreases |s|
  {
    if |s| == 0 then [""]
    else if s[0] == sep then [""] + Split(s[1..], sep)
    else
      var rest := Split(s[1..], sep);
      [[s[0]] + rest[0]] + rest[1..]
  }

  /** `parts.join(sep)`; the join of no parts is the empty string. */
  function Join(parts: seq<string>, sep: char): string
    decreases |parts|
  {
    if |parts| == 0 then ""
    else if |parts| == 1 then parts[0]
    else parts[0] + [sep] + Join(parts[1..], sep)
  }

  lemma {:induction false} SplitFields(s: string, sep: char)
    ensures forall k :: 0 <= k < |Split(s, sep)| ==> sep !in Split(s, sep)[k]
    ensures sep !in s ==> Split(s, sep) == [s]
    ensures sep in s ==> |Split(s, sep)| >= 2
    decreases |s|
  {
    if |s| > 0 {
      SplitFields(s[1..], sep);
      if s[0] != sep {
        var rest := Split(s[1..], sep);
        assert sep !in [s[0]] + rest[0];
        if sep !in s {
          assert sep !in s[1..];
          assert [s[0]] + s[1..] == s;
        }
        if sep in s {
          assert sep in s[1..] by {
            var k :| 0 <= k < |s| && s[k] == sep;
            assert s[1..][k - 1] == sep;
          }
        }
      }
    }
  }

  /** A field free of the separator, then the separator, splits off as the first field. */
  lemma {:induction false} SplitAt(a: string, b: string, sep: char)
    requires sep !in a
    ensures Split(a + [sep] + b, sep) == [a] + Split(b, sep)
    decreases |a|
  {
    var s := a + [sep] + b;
    if |a| == 0 {
      assert s == [sep] + b;
      assert s[1..] == b;
    } else {
      assert s[1..] == a[1..] + [sep] + b;
      SplitAt(a[1..], b, sep);
      assert [a[0]] + a[1..] == a;
    }
  }

  /** Splitting and re-joining with the same separator gives back the string. */
  lemma {:induction false} JoinSplit(s: string, sep: char)
    ensures Join(Split(s, sep), sep) == s
    decreases |s|
  {
    if |s| > 0 {
      JoinSplit(s[1..], sep);
      var rest := Split(s[1..], sep);
      if s[0] == sep {
        assert Split(s, sep)[1..] == rest;
        assert s == [sep] + s[1..];
      } else {
        var parts := Split(s, sep);
        assert parts[1..] == rest[1..];
        if |rest| == 1 {
          assert s == [s[0]] + rest[0];
        } else {
          assert Join(rest, sep) == rest[0] + [sep] + Join(rest[1..], sep);
          assert s == [s[0]] + s[1..];
        }
      }
    }
  }
}

/** Decimal digits: `Number.toString()` for naturals, `padStart` and `parseInt`. */
module Decimal {
  import opened Wrappers

  predicate IsDigit(c: char)
  {
    '0' <= c <= '9'
  }

  predicate AllDigits(s: string)
  {
    forall i :: 0 <= i < |s| ==> IsDigit(s[i])
  }

  function DigitValue(c: char): (d: nat)
    requires IsDigit(c)
    ensures d < 10
  {
    c as int - '0' as int
  }

  function DigitChar(d: nat): (c: char)
    requires d < 10
    ensures IsDigit(c) && DigitValue(c) == d
  {
    ('0' as int + d) as char
  }

  function Pow10(k: nat): (p: nat)
    ensures p >= 1
  {
    if k == 0 then 1 else 10 * Pow10(k - 1)
  }

  /** The shortest decimal numeral of `n`, as `n.toString()` writes it. */
  function NatToString(n: nat): (s: string)
    ensures |s| >= 1 && AllDigits(s)
    decreases n
  {
    if n < 10 then [DigitChar(n)] else NatToString(n / 10) + [DigitChar(n % 10)]
  }

  /** The value of a numeral, most significant digit first. */
  function ParseDigits(s: string): nat
    requires AllDigits(s)
    decreases |s|
  {
    if |s| == 0 then 0 else ParseDigits(s[..|s| - 1]) * 10 + DigitValue(s[|s| - 1])
  }

  /** Printing and then parsing a natural gives it back. */
  lemma {:induction false} ParseNatToString(n: nat)
    ensures ParseDigits(NatToString(n)) == n
    decreases n
  {
    if n >= 10 {
      ParseNatToString(n / 10);
      var s := NatToString(n);
      assert s[..|s| - 1] == NatToString(n / 10);
    }
  }

  /** A numeral that does not start with 0 is at least 10^(k-1). */
  lemma {:induction false} ParseDigitsLower(s: string)
    requires |s| > 0 && AllDigits(s) && s[0] != '0'
    ensures ParseDigits(s) >= Pow10(|s| - 1)
    decreases |s|
  {
    if |s| > 1 {
      ParseDigitsLower(s[..|s| - 1]);
    }
  }

  /** A numeral without a leading zero is the printed form of its value. */
  lemma {:induction false} NatToStringParse(s: string)
    requires |s| > 0 && AllDigits(s) && s[0] != '0'
    ensures NatToString(ParseDigits(s)) == s
    decreases |s|
  {
    if |s| == 1 {
      assert s == [DigitChar(ParseDigits(s))];
    } else {
      var init := s[..|s| - 1];
      ParseDigitsLower(init);
      NatToStringParse(init);
      var n := ParseDigits(s);
      assert n / 10 == ParseDigits(init) && n % 10 == DigitValue(s[|s| - 1]);
      assert s == init + [s[|s| - 1]];
    }
  }

  /** A numeral of k digits is below 10^k. */
  lemma {:induction false} ParseDigitsBound(s: string)
    requires AllDigits(s)
    ensures ParseDigits(s) < Pow10(|s|)
    decreases |s|
  {
    if |s| > 0 {
      ParseDigitsBound(s[..|s| - 1]);
    }
  }

  function Repeat(c: char, k: nat): (r: string)
    ensures |r| == k && forall i :: 0 <= i < k ==> r[i] == c
  {
    seq(k, i => c)
  }

  /** `s.padStart(width, c)` with a one-character pad. */
  function PadStart(s: string, width: nat, c: char): (r: string)
    ensures |r| == if |s| >= width then |s| else width
  {
    if |s| >= width then s else Repeat(c, width - |s|) + s
  }

  /** Leading zeros do not change the value of a numeral. */
  lemma {:induction false} ParseLeadingZeros(k: nat, s: string)
    requires AllDigits(s)
    ensures AllDigits(Repeat('0', k) + s)
    ensures ParseDigits(Repeat('0', k) + s) == ParseDigits(s)
    decreases k + |s|
  {
    var z := Repeat('0', k) + s;
    if |s| > 0 {
      ParseLeadingZeros(k, s[..|s| - 1]);
      assert z[..|z| - 1] == Repeat('0', k) + s[..|s| - 1];
    } else if k > 0 {
      ParseLeadingZeros(k - 1, s);
      assert z[..|z| - 1] == Repeat('0', k - 1) + s;
    }
  }

  /** The longest prefix of `s` made of digits. */
  function DigitPrefix(s: string): (p: string)
    ensures p <= s && AllDigits(p)
    ensures |p| < |s| ==> !IsDigit(s[|p|])
    decreases |s|
  {
    if |s| > 0 && IsDigit(s[0]) then [s[0]] + DigitPrefix(s[1..]) else ""
  }

  /**
   `parseInt(s)` (base 10) for a string that does not begin with whitespace or a sign: the
   value of its leading digits, or nothing (`NaN`) when it does not begin with a digit.
   */
  function ParseIntPrefix(s: string): (r: Option<nat>)
    ensures r.Some? <==> |s| > 0 && IsDigit(s[0])
  {
    if |s| > 0 && IsDigit(s[0]) then Some(ParseDigits(DigitPrefix(s))) else None
  }

  lemma {:induction false} DigitPrefixOfNumeral(s: string)
    requires AllDigits(s)
    ensures DigitPrefix(s) == s
    decreases |s|
  {
    if |s| > 0 {
      DigitPrefixOfNumeral(s[1..]);
      assert [s[0]] + s[1..] == s;
    }
  }

  /** On a numeral, parseInt reads the whole string. */
  lemma ParseIntNumeral(s: string)
    requires |s| > 0 && AllDigits(s)
    ensures ParseIntPrefix(s) == Some(ParseDigits(s))
  {
    DigitPrefixOfNumeral(s);
  }
}

=== FILE: triage.dfy ===
/**
 The triage scoring engine (`computeTriage` in src/lib/triage.ts): five additive, tiered
 risk rules over list-valued answers, a clamp to 0..100, a three-level classification,
 a bounded list of reasons and exactly three follow-up questions.
 */
module Triage {
  import opened Wrappers
  import opened Answers

  datatype Level = Verde | Ambar | Rojo

  datatype TriageAnalysis = TriageAnalysis(
    score: int,
    level: Level,
    reasons: seq<string>,
    aiSummary: string,
    aiQuestions: seq<string>)

  // Answer keys the engine reads.
  const FamilyKey := "q_family_history"
  const PersonalKey := "q_personal_history"
  const VascularKey := "q_vascular"
  const MedicationKey := "q_medication_habitual"
  const HabitsKey := "q_habits"
  const MentalHealthKey := "q_mental_health"

  // Option texts the rules test for.
  const FamilyNoneKnown := "Ninguno conocido"
  const FamilyUnknown := "No lo sabe"
  const No := "No"
  const SuddenDeath := "Muerte súbita (<50 años)"
  const FamilyCardio := "Cardiopatías / Infarto / Ictus"
  const HeartDisease := "Enfermedad cardiaca"
  const RespiratoryDisease := "Enfermedad respiratoria"
  const Anticoagulants := "Anticoagulantes"
  const Antihypertensives := "Antihipertensivos"
  const Smoker := "Fumador/a"

  const ReasonFamily := "Antecedentes familiares de riesgo"
  const ReasonPersonal := "Antecedentes personales de riesgo"
  const ReasonVascular := "Problemas vasculares"
  const ReasonMedication := "Medicación crónica relevante"

  /** Every reason the engine can give, in the order the rules give them. */
  const ReasonOrder := [ReasonFamily, ReasonPersonal, ReasonVascular, ReasonMedication]

  const SummaryVerde := "Resumen IA: Perfil de riesgo bajo. Sin antecedentes críticos inmediatos. Apto para revisión estándar."
  const SummaryAmbar := "Resumen IA: Perfil de riesgo moderado. Antecedentes médicos o medicación crónica que requieren supervisión."
  const SummaryRojo := "ALERTA IA: Perfil de riesgo elevado. Múltiples factores de salud detectados. Se recomienda revisión médica exhaustiva."

  const QuestionCardio := "¿Cuándo fue tu última revisión cardiológica completa?"
  const QuestionInr := "¿Llevas un control regular del INR o coagulación?"
  const QuestionSmoking := "¿Cuántos cigarrillos consumes al día y desde hace cuánto?"
  const QuestionTreatment := "¿Te encuentras en tratamiento activo actualmente?"

  const FillerSymptom := "¿Hay algún otro síntoma reciente que te preocupe?"
  const FillerAllergy := "¿Tienes alguna alergia no diagnosticada?"
  const FillerActivity := "¿Realizas actividad física regularmente?"

  /** The generic questions that pad the suggestions, in padding order. */
  const Fillers := [FillerSymptom, FillerAllergy, FillerActivity]

  /** Candidate questions the review screen draws from (content only; the drawing is not modelled). */
  const ExtraQuestionsPool := [
    "¿Has notado si el dolor aumenta con el reposo o con el movimiento?",
    "¿Hay alguna postura antálgica que te alivie el síntoma?",
    "¿Has tenido fiebre o escalofríos en las últimas horas?",
    "¿Sientes hormigueo o pérdida de fuerza en alguna extremidad?",
    "¿El síntoma se irradia hacia alguna otra zona del cuerpo?",
    "¿Has comido algo fuera de lo habitual hoy?",
    "¿Has estado en contacto con productos químicos recientemente?",
    "¿Cómo calificarías tu nivel de estrés hoy del 0 al 10?",
    "¿Has dormido bien la noche anterior (más de 6 horas)?"
  ]

  /** The running score and reasons while the rules are applied one after another. */
  datatype Acc = Acc(score: int, reasons: seq<string>)

  // ----- The five rules, one step each, as the engine applies them -----

  function FamilyStep(family: Answer, acc: Acc): Acc
  {
    if family.Multi? && FamilyNoneKnown !in family.items && FamilyUnknown !in family.items then
      var acc1 := acc.(score := acc.score + 10);
      if SuddenDeath in family.items then
        acc1.(score := acc1.score + 20, reasons := acc1.reasons + [ReasonFamily])
      else acc1
    else acc
  }

  function PersonalStep(personal: Answer, acc: Acc): Acc
  {
    if personal.Multi? && No !in personal.items then
      var acc1 := acc.(score := acc.score + 20);
      if HeartDisease in personal.items || RespiratoryDisease in personal.items then
        acc1.(score := acc1.score + 20, reasons := acc1.reasons + [ReasonPersonal])
      else acc1
    else acc
  }

  function VascularStep(vascular: Answer, acc: Acc): Acc
  {
    if vascular.Multi? && No !in vascular.items then
      acc.(score := acc.score + 15, reasons := acc.reasons + [ReasonVascular])
    else acc
  }

  function MedicationStep(meds: Answer, acc: Acc): Acc
  {
    if meds.Multi? && No !in meds.items then
      var acc1 := acc.(score := acc.score + 10);
      if Anticoagulants in meds.items || Antihypertensives in meds.items then
        acc1.(score := acc1.score + 10, reasons := acc1.reasons + [ReasonMedication])
      else acc1
    else acc
  }

  function HabitsStep(habits: Answer, acc: Acc): Acc
  {
    if habits.Multi? && No !in habits.items then acc.(score := acc.score + 5) else acc
  }

  /** Score and reasons after all five rules, before clamping and truncation. */
  function Accumulate(answers: AnswerMap): Acc
  {
    var family := OrEmptyList(answers, FamilyKey);
    var personal := OrEmptyList(answers, PersonalKey);
    var vascular := OrEmptyList(answers, VascularKey);
    var meds := OrEmptyList(answers, MedicationKey);
    var habits := OrEmptyList(answers, HabitsKey);
    HabitsStep(habits, MedicationStep(meds, VascularStep(vascular,
      PersonalStep(personal, FamilyStep(family, Acc(0, []))))))
  }

  /** `Math.min(100, Math.max(0, x))`. */
  function Clamp(x: int): int
  {
    var low := if x > 0 then x else 0;
    if low < 100 then low else 100
  }

  function LevelOf(score: int): Level
  {
    if score >= 60 then Rojo else if score >= 30 then Ambar else Verde
  }

  function SummaryOf(level: Level): string
  {
    match level
    case Verde => SummaryVerde
    case Ambar => SummaryAmbar
    case Rojo => SummaryRojo
  }

  /** The mental-health trigger: a truthy answer that does not include "No". */
  predicate MentalHealthFlag(answers: AnswerMap)
  {
    MentalHealthKey in answers && Truthy(answers[MentalHealthKey]) && !Includes(answers[MentalHealthKey], No)
  }

  /** The questions the answers trigger, before padding: cardio, INR, smoking, treatment. */
  function Triggered(answers: AnswerMap): seq<string>
  {
    var family := OrEmptyList(answers, FamilyKey);
    var personal := OrEmptyList(answers, PersonalKey);
    var meds := OrEmptyList(answers, MedicationKey);
    var habits := OrEmptyList(answers, HabitsKey);
    (if Includes(personal, HeartDisease) || Includes(family, FamilyCardio) then [QuestionCardio] else [])
    + (if Includes(meds, Anticoagulants) then [QuestionInr] else [])
    + (if Includes(habits, Smoker) then [QuestionSmoking] else [])
    + (if MentalHealthFlag(answers) then [QuestionTreatment] else [])
  }

  /** `if (qs.length < 3) qs.push(filler)`. */
  function PadIfShort(qs: seq<string>, filler: string): seq<string>
  {
    if |qs| < 3 then qs + [filler] else qs
  }

  /** `s.slice(0, n)`. */
  function Take(s: seq<string>, n: nat): seq<string>
  {
    if |s| <= n then s else s[..n]
  }

  /** `computeTriage(answers)`. */
  function ComputeTriage(answers: AnswerMap): (t: TriageAnalysis)
    ensures 0 <= t.score <= 100
    ensures t.level == Rojo <==> t.score >= 60
    ensures t.level == Ambar <==> 30 <= t.score < 60
    ensures t.level == Verde <==> t.score < 30
    ensures t.aiSummary == SummaryOf(t.level)
    ensures |t.reasons| <= 4
    ensures |t.aiQuestions| == 3
  {
    var acc := Accumulate(answers);
    var score := Clamp(acc.score);
    var level := LevelOf(score);
    var questions := PadIfShort(PadIfShort(PadIfShort(Triggered(answers), FillerSymptom), FillerAllergy), FillerActivity);
    TriageAnalysis(score, level, Take(acc.reasons, 4), SummaryOf(level), Take(questions, 3))
  }

  // ----- The policy as a table of rule records: an independent reading of the five rules -----

  /**
   One risk rule: a list field, its negative sentinels, a base weight, the markers of its most
   severe sub-case with their bonus, and the reason it gives (on the base or on the escalation).
   */
  datatype Rule = Rule(
    field: string,
    sentinels: seq<string>,
    base: nat,
    markers: seq<string>,
    bonus: nat,
    reason: Option<string>,
    reasonOnBase: bool)

  const FamilyRule := Rule(FamilyKey, [FamilyNoneKnown, FamilyUnknown], 10, [SuddenDeath], 20, Some(ReasonFamily), false)
  const PersonalRule := Rule(PersonalKey, [No], 20, [HeartDisease, RespiratoryDisease], 20, Some(ReasonPersonal), false)
  const VascularRule := Rule(VascularKey, [No], 15, [], 0, Some(ReasonVascular), true)
  const MedicationRule := Rule(MedicationKey, [No], 10, [Anticoagulants, Antihypertensives], 10, Some(ReasonMedication), false)
  const HabitsRule := Rule(HabitsKey, [No], 5, [], 0, None, true)

  /** The policy table, in evaluation order. */
  const Policy: seq<Rule> := [FamilyRule, PersonalRule, VascularRule, MedicationRule, HabitsRule]

  /** The rule's base condition: its field reads as a list holding none of its sentinels. */
  predicate Fires(r: Rule, answers: AnswerMap)
  {
    var v := OrEmptyList(answers, r.field);
    v.Multi? && forall s :: s in r.sentinels ==> s !in v.items
  }

  /** The escalation: the base condition holds and the list holds one of the markers. */
  predicate Escalates(r: Rule, answers: AnswerMap)
  {
    Fires(r, answers) && exists m :: m in r.markers && m in OrEmptyList(answers, r.field).items
  }

  function RuleDelta(r: Rule, answers: AnswerMap): nat
  {
    if !Fires(r, answers) then 0
    else if Escalates(r, answers) then r.base + r.bonus
    else r.base
  }

  function RuleReason(r: Rule, answers: AnswerMap): seq<string>
  {
    if r.reason.Some? && (if r.reasonOnBase then Fires(r, answers) else Escalates(r, answers))
    then [r.reason.value] else []
  }

  function PolicyScore(rules: seq<Rule>, answers: AnswerMap): nat
  {
    if |rules| == 0 then 0 else RuleDelta(rules[0], answers) + PolicyScore(rules[1..], answers)
  }

  function PolicyReasons(rules: seq<Rule>, answers: AnswerMap): seq<string>
  {
    if |rules| == 0 then [] else RuleReason(rules[0], answers) + PolicyReasons(rules[1..], answers)
  }

  lemma PolicyCons(r: Rule, rest: seq<Rule>, answers: AnswerMap)
    ensures PolicyScore([r] + rest, answers) == RuleDelta(r, answers) + PolicyScore(rest, answers)
    ensures PolicyReasons([r] + rest, answers) == RuleReason(r, answers) + PolicyReasons(rest, answers)
  {
    assert ([r] + rest)[1..] == rest;
  }

  /** A five-rule table scores the sum of its rules' deltas. */
  lemma PolicyScoreOfFive(r1: Rule, r2: Rule, r3: Rule, r4: Rule, r5: Rule, answers: AnswerMap)
    ensures PolicyScore([r1, r2, r3, r4, r5], answers)
      == RuleDelta(r1, answers) + RuleDelta(r2, answers) + RuleDelta(r3, answers)
       + RuleDelta(r4, answers) + RuleDelta(r5, answers)
  {
    var s1, s2, s3, s4, s5 := [r5], [r4, r5], [r3, r4, r5], [r2, r3, r4, r5], [r1, r2, r3, r4, r5];
    assert s1[1..] == [] && s2[1..] == s1 && s3[1..] == s2 && s4[1..] == s3 && s5[1..] == s4;
    assert PolicyScore(s1, answers) == RuleDelta(r5, answers);
    assert PolicyScore(s2, answers) == RuleDelta(r4, answers) + PolicyScore(s1, answers);
    assert PolicyScore(s3, answers) == RuleDelta(r3, answers) + PolicyScore(s2, answers);
    assert PolicyScore(s4, answers) == RuleDelta(r2, answers) + PolicyScore(s3, answers);
    assert PolicyScore(s5, answers) == RuleDelta(r1, answers) + PolicyScore(s4, answers);
  }

  /** A five-rule table gives its rules' reasons in order. */
  lemma PolicyReasonsOfFive(r1: Rule, r2: Rule, r3: Rule, r4: Rule, r5: Rule, answers: AnswerMap)
    ensures PolicyReasons([r1, r2, r3, r4, r5], answers)
      == RuleReason(r1, answers) + RuleReason(r2, answers) + RuleReason(r3, answers)
       + RuleReason(r4, answers) + RuleReason(r5, answers)
  {
    var s1, s2, s3, s4, s5 := [r5], [r4, r5], [r3, r4, r5], [r2, r3, r4, r5], [r1, r2, r3, r4, r5];
    assert s1[1..] == [] && s2[1..] == s1 && s3[1..] == s2 && s4[1..] == s3 && s5[1..] == s4;
    assert PolicyReasons(s1, answers) == RuleReason(r5, answers);
    assert PolicyReasons(s2, answers) == RuleReason(r4, answers) + PolicyReasons(s1, answers);
    assert PolicyReasons(s3, answers) == RuleReason(r3, answers) + PolicyReasons(s2, answers);
    assert PolicyReasons(s4, answers) == RuleReason(r2, answers) + PolicyReasons(s3, answers);
    assert PolicyReasons(s5, answers) == RuleReason(r1, answers) + PolicyReasons(s4, answers);
    Associate5(RuleReason(r1, answers), RuleReason(r2, answers), RuleReason(r3, answers),
      RuleReason(r4, answers), RuleReason(r5, answers));
  }

  lemma Associate5<T>(x1: seq<T>, x2: seq<T>, x3: seq<T>, x4: seq<T>, x5: seq<T>)
    ensures x1 + (x2 + (x3 + (x4 + (x5 + [])))) == x1 + x2 + x3 + x4 + x5
  {
    assert x5 + [] == x5;
  }

  /** The policy score is the sum of the five rule deltas. */
  lemma PolicyScoreUnfold(answers: AnswerMap)
    ensures PolicyScore(Policy, answers)
      == RuleDelta(FamilyRule, answers) + RuleDelta(PersonalRule, answers) + RuleDelta(VascularRule, answers)
       + RuleDelta(MedicationRule, answers) + RuleDelta(HabitsRule, answers)
  {
    PolicyScoreOfFive(FamilyRule, PersonalRule, VascularRule, MedicationRule, HabitsRule, answers);
  }

  /** The policy's reasons are the five rules' reasons in table order. */
  lemma PolicyReasonsUnfold(answers: AnswerMap)
    ensures PolicyReasons(Policy, answers)
      == RuleReason(FamilyRule, answers) + RuleReason(PersonalRule, answers) + RuleReason(VascularRule, answers)
       + RuleReason(MedicationRule, answers) + RuleReason(HabitsRule, answers)
  {
    PolicyReasonsOfFive(FamilyRule, PersonalRule, VascularRule, MedicationRule, HabitsRule, answers);
  }

  lemma FamilyStepFollowsRule(answers: AnswerMap, acc: Acc)
    ensures FamilyStep(OrEmptyList(answers, FamilyKey), acc)
      == Acc(acc.score + RuleDelta(FamilyRule, answers), acc.reasons + RuleReason(FamilyRule, answers))
  {
    var v := OrEmptyList(answers, FamilyKey);
    if v.Multi? && SuddenDeath in v.items {
      assert SuddenDeath in FamilyRule.markers;
    }
  }

  lemma PersonalStepFollowsRule(answers: AnswerMap, acc: Acc)
    ensures PersonalStep(OrEmptyList(answers, PersonalKey), acc)
      == Acc(acc.score + RuleDelta(PersonalRule, answers), acc.reasons + RuleReason(PersonalRule, answers))
  {
    var v := OrEmptyList(answers, PersonalKey);
    if v.Multi? && HeartDisease in v.items {
      assert HeartDisease in PersonalRule.markers;
    }
    if v.Multi? && RespiratoryDisease in v.items {
      assert RespiratoryDisease in PersonalRule.markers;
    }
  }

  lemma VascularStepFollowsRule(answers: AnswerMap, acc: Acc)
    ensures VascularStep(OrEmptyList(answers, VascularKey), acc)
      == Acc(acc.score + RuleDelta(VascularRule, answers), acc.reasons + RuleReason(VascularRule, answers))
  {
  }

  lemma MedicationStepFollowsRule(answers: AnswerMap, acc: Acc)
    ensures MedicationStep(OrEmptyList(answers, MedicationKey), acc)
      == Acc(acc.score + RuleDelta(MedicationRule, answers), acc.reasons + RuleReason(MedicationRule, answers))
  {
    var v := OrEmptyList(answers, MedicationKey);
    if v.Multi? && Anticoagulants in v.items {
      assert Anticoagulants in MedicationRule.markers;
    }
    if v.Multi? && Antihypertensives in v.items {
      assert Antihypertensives in MedicationRule.markers;
    }
  }

  lemma HabitsStepFollowsRule(answers: AnswerMap, acc: Acc)
    ensures HabitsStep(OrEmptyList(answers, HabitsKey), acc)
      == Acc(acc.score + RuleDelta(HabitsRule, answers), acc.reasons + RuleReason(HabitsRule, answers))
  {
  }

  /** The engine's sequential steps compute exactly the policy table's score and reasons. */
  lemma AccumulateFollowsPolicy(answers: AnswerMap)
    ensures Accumulate(answers).score == PolicyScore(Policy, answers)
    ensures Accumulate(answers).reasons == PolicyReasons(Policy, answers)
  {
    PolicyScoreUnfold(answers);
    PolicyReasonsUnfold(answers);
    var a0 := Acc(0, []);
    FamilyStepFollowsRule(answers, a0);
    var a1 := FamilyStep(OrEmptyList(answers, FamilyKey), a0);
    PersonalStepFollowsRule(answers, a1);
    var a2 := PersonalStep(OrEmptyList(answers, PersonalKey), a1);
    VascularStepFollowsRule(answers, a2);
    var a3 := VascularStep(OrEmptyList(answers, VascularKey), a2);
    MedicationStepFollowsRule(answers, a3);
    var a4 := MedicationStep(OrEmptyList(answers, MedicationKey), a3);
    HabitsStepFollowsRule(answers, a4);
  }

  /** The score is the policy total clamped to 100; the reasons are the policy's reasons. */
  lemma ComputeTriageFollowsPolicy(answers: AnswerMap)
    ensures ComputeTriage(answers).score == Clamp(PolicyScore(Policy, answers))
    ensures PolicyScore(Policy, answers) <= 110
    ensures ComputeTriage(answers).reasons == PolicyReasons(Policy, answers)
  {
    AccumulateFollowsPolicy(answers);
    PolicyScoreUnfold(answers);
    PolicyReasonsUnfold(answers);
  }

  /** The reasons are the five rules' reasons, in table order. */
  lemma ReasonsUnfold(answers: AnswerMap)
    ensures ComputeTriage(answers).reasons
      == RuleReason(FamilyRule, answers) + RuleReason(PersonalRule, answers) + RuleReason(VascularRule, answers)
       + RuleReason(MedicationRule, answers) + RuleReason(HabitsRule, answers)
  {
    ComputeTriageFollowsPolicy(answers);
    PolicyReasonsUnfold(answers);
  }
}

=== FILE: triage_properties.dfy ===
/** What the triage engine promises about its score, level, reasons and questions. */
module TriageProperties {
  import opened Answers
  import opened Triage
  import opened Seqs

  function Opt<T>(b: bool, x: T): seq<T>
  {
    if b then [x] else []
  }

  lemma OptConsSubsequence<T>(b: bool, x: T, rest: seq<T>, ys: seq<T>)
    requires IsSubsequence(rest, ys)
    ensures IsSubsequence(Opt(b, x) + rest, [x] + ys)
  {
    var zs := [x] + ys;
    assert zs[1..] == ys;
    if b {
      var xs := Opt(b, x) + rest;
      assert xs[0] == zs[0] && xs[1..] == rest;
    } else {
      assert Opt(b, x) + rest == rest;
    }
  }

  /** `answers` with `x` appended to the list stored under `k`. */
  function AddItem(answers: AnswerMap, k: string, x: string): AnswerMap
    requires OrEmptyList(answers, k).Multi?
  {
    answers[k := Multi(OrEmptyList(answers, k).items + [x])]
  }

  // ----- Concrete profiles -----

  /** An empty answer map counts every list rule as triggered: 60 points, red, one reason, three fillers. */
  lemma EmptyAnswers()
    ensures ComputeTriage(map[]) == TriageAnalysis(60, Rojo, [ReasonVascular], SummaryRojo, Fillers)
  {
    EmptyAnswersScore();
    EmptyAnswersReasons();
    EmptyAnswersQuestions();
  }

  lemma EmptyAnswersScore()
    ensures ComputeTriage(map[]).score == 60
  {
    var e: AnswerMap := map[];
    ComputeTriageFollowsPolicy(e);
    PolicyScoreUnfold(e);
  }

  lemma EmptyAnswersReasons()
    ensures ComputeTriage(map[]).reasons == [ReasonVascular]
  {
    var e: AnswerMap := map[];
    ReasonsUnfold(e);
    RuleReasons(e);
  }

  lemma EmptyAnswersQuestions()
    ensures ComputeTriage(map[]).aiQuestions == Fillers
  {
    var e: AnswerMap := map[];
    AiQuestionsShape(e);
    assert Triggered(e) == [];
  }

  /** None of the five scored fields is answered. */
  predicate NoScoredFields(answers: AnswerMap)
  {
    FamilyKey !in answers && PersonalKey !in answers && VascularKey !in answers
    && MedicationKey !in answers && HabitsKey !in answers
  }

  /**
   Without the five scored fields the answers score, level and give reasons exactly as the empty
   map; the questions are the fillers unless the mental-health answer triggers the treatment one.
   */
  lemma WithoutScoredFields(answers: AnswerMap)
    requires NoScoredFields(answers)
    ensures ComputeTriage(answers).score == 60 && ComputeTriage(answers).level == Rojo
    ensures ComputeTriage(answers).reasons == [ReasonVascular]
    ensures ComputeTriage(answers).aiQuestions
      == if MentalHealthFlag(answers) then [QuestionTreatment, FillerSymptom, FillerAllergy] else Fillers
  {
    WithoutScoredFieldsScore(answers);
    WithoutScoredFieldsReasons(answers);
    WithoutScoredFieldsQuestions(answers);
  }

  lemma WithoutScoredFieldsScore(answers: AnswerMap)
    requires NoScoredFields(answers)
    ensures ComputeTriage(answers).score == 60
  {
    var e: AnswerMap := map[];
    SameFieldSameRule(FamilyRule, answers, e);
    SameFieldSameRule(PersonalRule, answers, e);
    SameFieldSameRule(VascularRule, answers, e);
    SameFieldSameRule(MedicationRule, answers, e);
    SameFieldSameRule(HabitsRule, answers, e);
    ComputeTriageFollowsPolicy(answers);
    PolicyScoreUnfold(answers);
    ComputeTriageFollowsPolicy(e);
    PolicyScoreUnfold(e);
    EmptyAnswersScore();
  }

  lemma WithoutScoredFieldsReasons(answers: AnswerMap)
    requires NoScoredFields(answers)
    ensures ComputeTriage(answers).reasons == [ReasonVascular]
  {
    var e: AnswerMap := map[];
    SameFieldsSameReasons(answers, e);
    EmptyAnswersReasons();
  }

  lemma WithoutScoredFieldsQuestions(answers: AnswerMap)
    requires NoScoredFields(answers)
    ensures ComputeTriage(answers).aiQuestions
      == if MentalHealthFlag(answers) then [QuestionTreatment, FillerSymptom, FillerAllergy] else Fillers
  {
    AiQuestionsShape(answers);
    assert Triggered(answers) == if MentalHealthFlag(answers) then [QuestionTreatment] else [];
  }

  /** Answering every scored field with its "none" entry scores nothing and asks only the fillers. */
  lemma AllSentinels(answers: AnswerMap)
    requires FamilyKey in answers && answers[FamilyKey] == Multi([FamilyNoneKnown])
    requires PersonalKey in answers && answers[PersonalKey] == Multi([No])
    requires VascularKey in answers && answers[VascularKey] == Multi([No])
    requires MedicationKey in answers && answers[MedicationKey] == Multi([No])
    requires HabitsKey in answers && answers[HabitsKey] == Multi([No])
    requires MentalHealthKey in answers && answers[MentalHealthKey] == Multi([No])
    ensures ComputeTriage(answers) == TriageAnalysis(0, Verde, [], SummaryVerde, Fillers)
  {
    ComputeTriageFollowsPolicy(answers);
    PolicyScoreUnfold(answers);
    PolicyReasonsUnfold(answers);
    assert Triggered(answers) == [];
  }

  /** Answers that escalate every rule: sudden death in the family, heart disease, varices, anticoagulants, smoking. */
  function FullEscalation(): AnswerMap
  {
    map[
      FamilyKey := Multi([SuddenDeath]),
      PersonalKey := Multi([HeartDisease]),
      VascularKey := Multi(["Varices"]),
      MedicationKey := Multi([Anticoagulants]),
      HabitsKey := Multi([Smoker])]
  }

  /** All five rules at full escalation add up to 110, so the upper clamp is reached. */
  lemma UpperClampReachable()
    ensures PolicyScore(Policy, FullEscalation()) == 110 && ComputeTriage(FullEscalation()).score == 100
  {
    FullEscalationScore();
    ComputeTriageFollowsPolicy(FullEscalation());
  }

  lemma FullEscalationScore()
    ensures PolicyScore(Policy, FullEscalation()) == 110
  {
    var answers := FullEscalation();
    PolicyScoreUnfold(answers);
    SingleItemDelta(FamilyRule, answers, SuddenDeath);
    SingleItemDelta(PersonalRule, answers, HeartDisease);
    SingleItemDelta(VascularRule, answers, "Varices");
    SingleItemDelta(MedicationRule, answers, Anticoagulants);
    SingleItemDelta(HabitsRule, answers, Smoker);
  }

  /** A rule whose field holds one non-sentinel item adds its base, and its bonus too when the item is a marker. */
  lemma SingleItemDelta(r: Rule, answers: AnswerMap, v: string)
    requires OrEmptyList(answers, r.field) == Multi([v])
    requires v !in r.sentinels
    ensures RuleDelta(r, answers) == if v in r.markers then r.base + r.bonus else r.base
  {
    if v in r.markers {
      assert v in OrEmptyList(answers, r.field).items;
    }
  }

  // ----- Reading of answer values -----

  /** A non-empty plain-string value gives its rule no score and no reason. */
  lemma TextValueScoresNothing(answers: AnswerMap, r: Rule)
    requires r.field in answers && answers[r.field].Text? && answers[r.field].text != ""
    ensures RuleDelta(r, answers) == 0 && RuleReason(r, answers) == []
  {
  }

  /** An empty-string answer is read exactly like a missing one. */
  lemma EmptyTextIsMissing(answers: AnswerMap, k: string)
    ensures ComputeTriage(answers[k := Text("")]) == ComputeTriage(answers - {k})
  {
    var a1 := answers[k := Text("")];
    var a2 := answers - {k};
    forall j
      ensures OrEmptyList(a1, j) == OrEmptyList(a2, j)
    {
    }
    assert MentalHealthFlag(a1) == MentalHealthFlag(a2);
    assert Triggered(a1) == Triggered(a2);
    assert Accumulate(a1) == Accumulate(a2);
  }

  // ----- Reasons -----

  /** Family escalates exactly on a sentinel-free list holding the sudden-death marker. */
  lemma FamilyEscalation(answers: AnswerMap)
    ensures var f := OrEmptyList(answers, FamilyKey);
      Escalates(FamilyRule, answers) <==>
        (f.Multi? && FamilyNoneKnown !in f.items && FamilyUnknown !in f.items && SuddenDeath in f.items)
  {
    var f := OrEmptyList(answers, FamilyKey);
    if f.Multi? && SuddenDeath in f.items {
      assert SuddenDeath in FamilyRule.markers;
    }
  }

  lemma PersonalEscalation(answers: AnswerMap)
    ensures var p := OrEmptyList(answers, PersonalKey);
      Escalates(PersonalRule, answers) <==>
        (p.Multi? && No !in p.items && (HeartDisease in p.items || RespiratoryDisease in p.items))
  {
    var p := OrEmptyList(answers, PersonalKey);
    if p.Multi? && HeartDisease in p.items {
      assert HeartDisease in PersonalRule.markers;
    }
    if p.Multi? && RespiratoryDisease in p.items {
      assert RespiratoryDisease in PersonalRule.markers;
    }
  }

  lemma MedicationEscalation(answers: AnswerMap)
    ensures var m := OrEmptyList(answers, MedicationKey);
      Escalates(MedicationRule, answers) <==>
        (m.Multi? && No !in m.items && (Anticoagulants in m.items || Antihypertensives in m.items))
  {
    var m := OrEmptyList(answers, MedicationKey);
    if m.Multi? && Anticoagulants in m.items {
      assert Anticoagulants in MedicationRule.markers;
    }
    if m.Multi? && Antihypertensives in m.items {
      assert Antihypertensives in MedicationRule.markers;
    }
  }

  /** Each rule's reason list: present on the escalation (vascular: on its base), never for habits. */
  lemma RuleReasons(answers: AnswerMap)
    ensures RuleReason(FamilyRule, answers) == Opt(Escalates(FamilyRule, answers), ReasonFamily)
    ensures RuleReason(PersonalRule, answers) == Opt(Escalates(PersonalRule, answers), ReasonPersonal)
    ensures RuleReason(VascularRule, answers) == Opt(Fires(VascularRule, answers), ReasonVascular)
    ensures RuleReason(MedicationRule, answers) == Opt(Escalates(MedicationRule, answers), ReasonMedication)
    ensures RuleReason(HabitsRule, answers) == []
  {
  }

  /** The reasons, rule by rule: each present or absent. */
  lemma ReasonsAsOptions(answers: AnswerMap)
    ensures ComputeTriage(answers).reasons
      == Opt(Escalates(FamilyRule, answers), ReasonFamily)
       + (Opt(Escalates(PersonalRule, answers), ReasonPersonal)
       + (Opt(Fires(VascularRule, answers), ReasonVascular)
       + (Opt(Escalates(MedicationRule, answers), ReasonMedication) + [])))
  {
    var f := RuleReason(FamilyRule, answers);
    var p := RuleReason(PersonalRule, answers);
    var v := RuleReason(VascularRule, answers);
    var m := RuleReason(MedicationRule, answers);
    var h := RuleReason(HabitsRule, answers);
    ReasonsUnfold(answers);
    RuleReasons(answers);
    Associate(f, p, v, m);
  }

  lemma Associate<T>(f: seq<T>, p: seq<T>, v: seq<T>, m: seq<T>)
    ensures f + p + v + m + [] == f + (p + (v + (m + [])))
  {
  }

  /** Two answer maps that read a rule's field alike agree on everything the rule decides. */
  lemma SameFieldSameRule(r: Rule, a: AnswerMap, b: AnswerMap)
    requires OrEmptyList(a, r.field) == OrEmptyList(b, r.field)
    ensures Fires(r, a) == Fires(r, b) && Escalates(r, a) == Escalates(r, b)
    ensures RuleDelta(r, a) == RuleDelta(r, b) && RuleReason(r, a) == RuleReason(r, b)
  {
  }

  /**
   Each reason appears exactly when its rule escalated (vascular: when its base fired).
   */
  lemma ReasonsCharacterised(answers: AnswerMap)
    ensures var f := OrEmptyList(answers, FamilyKey);
      (ReasonFamily in ComputeTriage(answers).reasons) <==>
        (f.Multi? && FamilyNoneKnown !in f.items && FamilyUnknown !in f.items && SuddenDeath in f.items)
    ensures var p := OrEmptyList(answers, PersonalKey);
      (ReasonPersonal in ComputeTriage(answers).reasons) <==>
        (p.Multi? && No !in p.items && (HeartDisease in p.items || RespiratoryDisease in p.items))
    ensures var v := OrEmptyList(answers, VascularKey);
      (ReasonVascular in ComputeTriage(answers).reasons) <==> (v.Multi? && No !in v.items)
    ensures var m := OrEmptyList(answers, MedicationKey);
      (ReasonMedication in ComputeTriage(answers).reasons) <==>
        (m.Multi? && No !in m.items && (Anticoagulants in m.items || Antihypertensives in m.items))
  {
    ReasonsAsOptions(answers);
    FamilyEscalation(answers);
    PersonalEscalation(answers);
    MedicationEscalation(answers);
    ReasonsDistinct();
    InFourOptions(Escalates(FamilyRule, answers), Escalates(PersonalRule, answers),
      Fires(VascularRule, answers), Escalates(MedicationRule, answers),
      ReasonFamily, ReasonPersonal, ReasonVascular, ReasonMedication);
  }

  /** Membership in four optional, pairwise distinct entries. */
  lemma InFourOptions<T>(b1: bool, b2: bool, b3: bool, b4: bool, x1: T, x2: T, x3: T, x4: T)
    requires x1 != x2 && x1 != x3 && x1 != x4 && x2 != x3 && x2 != x4 && x3 != x4
    ensures var s := Opt(b1, x1) + (Opt(b2, x2) + (Opt(b3, x3) + (Opt(b4, x4) + [])));
      && (x1 in s <==> b1) && (x2 in s <==> b2) && (x3 in s <==> b3) && (x4 in s <==> b4)
  {
  }

  lemma ReasonsDistinct()
    ensures ReasonFamily != ReasonPersonal && ReasonFamily != ReasonVascular && ReasonFamily != ReasonMedication
    ensures ReasonPersonal != ReasonVascular && ReasonPersonal != ReasonMedication
    ensures ReasonVascular != ReasonMedication
  {
    assert ReasonFamily[13] != ReasonPersonal[13];
    assert ReasonFamily[0] != ReasonVascular[0] && ReasonFamily[0] != ReasonMedication[0];
    assert ReasonPersonal[0] != ReasonVascular[0] && ReasonPersonal[0] != ReasonMedication[0];
    assert ReasonVascular[0] != ReasonMedication[0];
  }

  /** The reasons keep rule order, so they are at most the four of the order. */
  lemma ReasonsInRuleOrder(answers: AnswerMap)
    ensures IsSubsequence(ComputeTriage(answers).reasons, ReasonOrder)
  {
    ReasonsAsOptions(answers);
    var bf := Escalates(FamilyRule, answers);
    var bp := Escalates(PersonalRule, answers);
    var bv := Fires(VascularRule, answers);
    var bm := Escalates(MedicationRule, answers);
    OptConsSubsequence(bm, ReasonMedication, [], []);
    OptConsSubsequence(bv, ReasonVascular, Opt(bm, ReasonMedication) + [], [ReasonMedication]);
    OptConsSubsequence(bp, ReasonPersonal, Opt(bv, ReasonVascular) + (Opt(bm, ReasonMedication) + []),
      [ReasonVascular, ReasonMedication]);
    OptConsSubsequence(bf, ReasonFamily, Opt(bp, ReasonPersonal) + (Opt(bv, ReasonVascular) + (Opt(bm, ReasonMedication) + [])),
      [ReasonPersonal, ReasonVascular, ReasonMedication]);
  }

  /** Two answer maps that read the four reason-giving fields alike give the same reasons. */
  lemma SameFieldsSameReasons(a: AnswerMap, b: AnswerMap)
    requires OrEmptyList(a, FamilyKey) == OrEmptyList(b, FamilyKey)
    requires OrEmptyList(a, PersonalKey) == OrEmptyList(b, PersonalKey)
    requires OrEmptyList(a, VascularKey) == OrEmptyList(b, VascularKey)
    requires OrEmptyList(a, MedicationKey) == OrEmptyList(b, MedicationKey)
    ensures ComputeTriage(a).reasons == ComputeTriage(b).reasons
  {
    ReasonsUnfold(a);
    ReasonsUnfold(b);
    SameFieldSameRule(FamilyRule, a, b);
    SameFieldSameRule(PersonalRule, a, b);
    SameFieldSameRule(VascularRule, a, b);
    SameFieldSameRule(MedicationRule, a, b);
    assert RuleReason(HabitsRule, a) == [] == RuleReason(HabitsRule, b);
  }

  /** The habits answer moves the score but never the reasons. */
  lemma HabitsGiveNoReason(answers: AnswerMap, v: Answer)
    ensures ComputeTriage(answers[HabitsKey := v]).reasons == ComputeTriage(answers).reasons
  {
    var a1 := answers[HabitsKey := v];
    assert OrEmptyList(a1, FamilyKey) == OrEmptyList(answers, FamilyKey);
    assert OrEmptyList(a1, PersonalKey) == OrEmptyList(answers, PersonalKey);
    assert OrEmptyList(a1, VascularKey) == OrEmptyList(answers, VascularKey);
    assert OrEmptyList(a1, MedicationKey) == OrEmptyList(answers, MedicationKey);
    SameFieldsSameReasons(a1, answers);
  }

  // ----- Follow-up questions -----

  /**
   The triggered questions come in the fixed order cardio, INR, smoking, treatment, each exactly
   when its condition holds (`.includes` being list membership or substring search).
   */
  lemma TriggeredCharacterised(answers: AnswerMap)
    ensures var q := Triggered(answers);
      && (QuestionCardio in q <==> (Includes(OrEmptyList(answers, PersonalKey), HeartDisease)
                                    || Includes(OrEmptyList(answers, FamilyKey), FamilyCardio)))
      && (QuestionInr in q <==> Includes(OrEmptyList(answers, MedicationKey), Anticoagulants))
      && (QuestionSmoking in q <==> Includes(OrEmptyList(answers, HabitsKey), Smoker))
      && (QuestionTreatment in q <==> (MentalHealthKey in answers && Truthy(answers[MentalHealthKey])
                                       && !Includes(answers[MentalHealthKey], No)))
      && IsSubsequence(q, [QuestionCardio, QuestionInr, QuestionSmoking, QuestionTreatment])
  {
    var family := OrEmptyList(answers, FamilyKey);
    var personal := OrEmptyList(answers, PersonalKey);
    var meds := OrEmptyList(answers, MedicationKey);
    var habits := OrEmptyList(answers, HabitsKey);
    var b1 := Includes(personal, HeartDisease) || Includes(family, FamilyCardio);
    var b2 := Includes(meds, Anticoagulants);
    var b3 := Includes(habits, Smoker);
    var b4 := MentalHealthFlag(answers);
    var q := Triggered(answers);
    assert q == Opt(b1, QuestionCardio) + (Opt(b2, QuestionInr) + (Opt(b3, QuestionSmoking) + (Opt(b4, QuestionTreatment) + [])));
    QuestionsDistinct();
    InFourOptions(b1, b2, b3, b4, QuestionCardio, QuestionInr, QuestionSmoking, QuestionTreatment);
    FourOptionsSubsequence(b1, b2, b3, b4, QuestionCardio, QuestionInr, QuestionSmoking, QuestionTreatment);
  }

  /** Four optional entries keep the order of the four entries. */
  lemma FourOptionsSubsequence<T>(b1: bool, b2: bool, b3: bool, b4: bool, x1: T, x2: T, x3: T, x4: T)
    ensures IsSubsequence(Opt(b1, x1) + (Opt(b2, x2) + (Opt(b3, x3) + (Opt(b4, x4) + []))), [x1, x2, x3, x4])
  {
    OptConsSubsequence(b4, x4, [], []);
    assert [x4] + [] == [x4];
    OptConsSubsequence(b3, x3, Opt(b4, x4) + [], [x4]);
    assert [x3] + [x4] == [x3, x4];
    OptConsSubsequence(b2, x2, Opt(b3, x3) + (Opt(b4, x4) + []), [x3, x4]);
    assert [x2] + [x3, x4] == [x2, x3, x4];
    OptConsSubsequence(b1, x1, Opt(b2, x2) + (Opt(b3, x3) + (Opt(b4, x4) + [])), [x2, x3, x4]);
    assert [x1] + [x2, x3, x4] == [x1, x2, x3, x4];
  }

  lemma QuestionsDistinct()
    ensures QuestionCardio != QuestionInr && QuestionCardio != QuestionSmoking && QuestionCardio != QuestionTreatment
    ensures QuestionInr != QuestionSmoking && QuestionInr != QuestionTreatment
    ensures QuestionSmoking != QuestionTreatment
  {
  }

  /**
   The three questions are the first three triggered ones, or all triggered ones followed by
   as many fillers, in filler order, as are needed to reach three.
   */
  lemma AiQuestionsShape(answers: AnswerMap)
    ensures var q := Triggered(answers);
      ComputeTriage(answers).aiQuestions == if |q| >= 3 then q[..3] else q + Fillers[..3 - |q|]
  {
    var q := Triggered(answers);
    assert |q| <= 4;
    if |q| == 0 {
      assert q + Fillers[..3] == [FillerSymptom, FillerAllergy, FillerActivity];
    } else if |q| == 1 {
      assert q + Fillers[..2] == q + [FillerSymptom, FillerAllergy];
    } else if |q| == 2 {
      assert q + Fillers[..1] == q + [FillerSymptom];
    }
  }

  // ----- Monotonicity of the score -----

  lemma {:induction false} PolicyScoreMonotone(rules: seq<Rule>, a: AnswerMap, b: AnswerMap)
    requires forall r :: r in rules ==> RuleDelta(r, a) <= RuleDelta(r, b)
    ensures PolicyScore(rules, a) <= PolicyScore(rules, b)
    decreases |rules|
  {
    if |rules| > 0 {
      assert rules[0] in rules;
      forall r | r in rules[1..]
        ensures RuleDelta(r, a) <= RuleDelta(r, b)
      {
        assert r in rules;
      }
      PolicyScoreMonotone(rules[1..], a, b);
    }
  }

  lemma RuleDeltaGrows(r: Rule, answers: AnswerMap, k: string, x: string)
    requires OrEmptyList(answers, k).Multi?
    requires r.field == k ==> x !in r.sentinels
    ensures RuleDelta(r, answers) <= RuleDelta(r, AddItem(answers, k, x))
  {
    var a1 := AddItem(answers, k, x);
    if r.field == k {
      var v := OrEmptyList(answers, k);
      var v1 := OrEmptyList(a1, k);
      assert v1.items == v.items + [x];
      if Escalates(r, answers) {
        var m :| m in r.markers && m in v.items;
        assert m in v1.items;
      }
    } else {
      assert OrEmptyList(a1, r.field) == OrEmptyList(answers, r.field);
    }
  }

  /** Adding an answer that is not a sentinel of its field never lowers the score. */
  lemma AddingRiskNeverLowersScore(answers: AnswerMap, k: string, x: string)
    requires OrEmptyList(answers, k).Multi?
    requires forall r :: r in Policy && r.field == k ==> x !in r.sentinels
    ensures ComputeTriage(answers).score <= ComputeTriage(AddItem(answers, k, x)).score
  {
    var a1 := AddItem(answers, k, x);
    forall r | r in Policy
      ensures RuleDelta(r, answers) <= RuleDelta(r, a1)
    {
      RuleDeltaGrows(r, answers, k, x);
    }
    PolicyScoreMonotone(Policy, answers, a1);
    ComputeTriageFollowsPolicy(answers);
    ComputeTriageFollowsPolicy(a1);
  }

  lemma {:induction false} PolicyScoreWithoutRule(rules: seq<Rule>, r: Rule, a: AnswerMap, b: AnswerMap)
    requires forall r' :: r' in rules && r'.field == r.field ==> r' == r
    requires forall i, j :: 0 <= i < j < |rules| ==> rules[i] != rules[j]
    requires forall r' :: r' in rules && r'.field != r.field ==> RuleDelta(r', a) == RuleDelta(r', b)
    requires RuleDelta(r, b) == 0
    ensures PolicyScore(rules, b) + (if r in rules then RuleDelta(r, a) else 0) == PolicyScore(rules, a)
    decreases |rules|
  {
    if |rules| > 0 {
      var rest := rules[1..];
      assert rules[0] in rules;
      assert forall r' :: r' in rest ==> r' in rules;
      assert forall i, j :: 0 <= i < j < |rest| ==> rest[i] == rules[i + 1] && rest[j] == rules[j + 1];
      PolicyScoreWithoutRule(rest, r, a, b);
      if rules[0] == r {
        assert r !in rest;
      } else {
        assert r in rules <==> r in rest;
      }
    }
  }

  lemma PolicyFieldsDistinct()
    ensures forall r, r' :: r in Policy && r' in Policy && r.field == r'.field ==> r == r'
    ensures forall i, j :: 0 <= i < j < |Policy| ==> Policy[i] != Policy[j]
  {
  }

  /** Adding a field's sentinel ("No", "Ninguno conocido", "No lo sabe") removes that field's whole contribution. */
  lemma SentinelRemovesContribution(answers: AnswerMap, r: Rule, s: string)
    requires r in Policy
    requires OrEmptyList(answers, r.field).Multi?
    requires s in r.sentinels
    ensures var a1 := AddItem(answers, r.field, s);
      && RuleDelta(r, a1) == 0
      && PolicyScore(Policy, a1) == PolicyScore(Policy, answers) - RuleDelta(r, answers)
      && ComputeTriage(a1).score == Clamp(PolicyScore(Policy, answers) - RuleDelta(r, answers))
  {
    var a1 := AddItem(answers, r.field, s);
    SentinelZeroesRule(answers, r, s);
    PolicyFieldsDistinct();
    PolicyScoreWithoutRule(Policy, r, answers, a1);
    ComputeTriageFollowsPolicy(a1);
  }

  /** Adding a sentinel zeroes the rule and leaves every rule of another field as it was. */
  lemma SentinelZeroesRule(answers: AnswerMap, r: Rule, s: string)
    requires OrEmptyList(answers, r.field).Multi?
    requires s in r.sentinels
    ensures var a1 := AddItem(answers, r.field, s);
      && RuleDelta(r, a1) == 0
      && forall r': Rule :: r'.field != r.field ==> RuleDelta(r', a1) == RuleDelta(r', answers)
  {
    var k := r.field;
    var a1 := AddItem(answers, k, s);
    assert OrEmptyList(a1, k).items == OrEmptyList(answers, k).items + [s];
    assert s in OrEmptyList(a1, k).items;
    forall r': Rule | r'.field != k
      ensures RuleDelta(r', a1) == RuleDelta(r', answers)
    {
      assert OrEmptyList(a1, r'.field) == OrEmptyList(answers, r'.field);
    }
  }
}

=== FILE: wizard.dfy ===
/**
 The questionnaire wizard: the list of questions a worker is asked, the required-answer
 check, the walk forward past hidden questions, the back stack and the progress bar.
 */
module Wizard {
  import opened Wrappers
  import opened Answers
  import opened Questionnaire
  import opened Seqs

  /** The wizard's answers, the ids of the questions already passed, and the current question. */
  datatype WizardState = WizardState(answers: AnswerMap, history: seq<string>, current: Option<string>)

  /** Where "Siguiente" leads. */
  datatype NextOutcome =
    | Ignored                       // no current question on screen
    | Blocked                       // a required question has no answer: the state stays
    | ToReview                      // no visible question is left
    | Advanced(state: WizardState)

  /** Where the back arrow leads. */
  datatype BackOutcome = ToIdentification | Back(state: WizardState)

  /** The declared exposures: the first truthy of `q1_4_tasks` and `exposures`, else the empty list. */
  function Exposures(answers: AnswerMap): Answer
  {
    if "q1_4_tasks" in answers && Truthy(answers["q1_4_tasks"]) then answers["q1_4_tasks"]
    else if "exposures" in answers && Truthy(answers["exposures"]) then answers["exposures"]
    else Multi([])
  }

  /** A module with an exposure trigger, some entry of which the declared exposures include. */
  predicate ModuleIncluded(m: QuestionModule, exposures: Answer)
  {
    m.exposuresIncludes.Some? && Any(m.exposuresIncludes.value, e => Includes(exposures, e))
  }

  /** The module loop: appends each included module's questions to `acc`, in configuration order. */
  function AddModules(acc: seq<Question>, modules: seq<QuestionModule>, exposures: Answer): seq<Question>
    decreases |modules|
  {
    if |modules| == 0 then acc
    else
      var acc' := if ModuleIncluded(modules[0], exposures) then acc + modules[0].questions else acc;
      AddModules(acc', modules[1..], exposures)
  }

  /** Every question the worker may be asked, for the answers given so far. */
  function AllQuestions(config: Config, answers: AnswerMap): seq<Question>
  {
    AddModules(config.core, config.modules, Exposures(answers)) + config.closing.GetOr([])
  }

  /** The questions of the given modules, one module after the other. */
  function QuestionsOf(modules: seq<QuestionModule>): seq<Question>
    decreases |modules|
  {
    if |modules| == 0 then [] else modules[0].questions + QuestionsOf(modules[1..])
  }

  lemma {:induction false} AddModulesAppends(acc: seq<Question>, modules: seq<QuestionModule>, exposures: Answer)
    ensures AddModules(acc, modules, exposures) == acc + QuestionsOf(Filter(modules, m => ModuleIncluded(m, exposures)))
    decreases |modules|
  {
    if |modules| > 0 {
      var acc' := if ModuleIncluded(modules[0], exposures) then acc + modules[0].questions else acc;
      AddModulesAppends(acc', modules[1..], exposures);
      var rest := Filter(modules[1..], m => ModuleIncluded(m, exposures));
      if ModuleIncluded(modules[0], exposures) {
        assert Filter(modules, m => ModuleIncluded(m, exposures)) == [modules[0]] + rest;
        assert ([modules[0]] + rest)[1..] == rest;
        assert QuestionsOf([modules[0]] + rest) == modules[0].questions + QuestionsOf(rest);
        assert acc' + QuestionsOf(rest) == acc + (modules[0].questions + QuestionsOf(rest));
      } else {
        assert Filter(modules, m => ModuleIncluded(m, exposures)) == rest;
      }
    }
  }

  /** The list is the core questions, then the included modules' questions in order, then the closing ones. */
  lemma AllQuestionsLayout(config: Config, answers: AnswerMap)
    ensures AllQuestions(config, answers) ==
      config.core
      + QuestionsOf(Filter(config.modules, m => ModuleIncluded(m, Exposures(answers))))
      + config.closing.GetOr([])
  {
    AddModulesAppends(config.core, config.modules, Exposures(answers));
  }

  /**
   A module is included exactly when one of its trigger entries is among the declared
   exposures (a substring of them when they were stored as text); never without a trigger.
   */
  lemma ModuleIncludedIff(m: QuestionModule, answers: AnswerMap)
    ensures m.exposuresIncludes.None? ==> !ModuleIncluded(m, Exposures(answers))
    ensures m.exposuresIncludes.Some? ==>
      (ModuleIncluded(m, Exposures(answers)) <==>
        exists i :: 0 <= i < |m.exposuresIncludes.value| && Includes(Exposures(answers), m.exposuresIncludes.value[i]))
  {
    if m.exposuresIncludes.Some? {
      AnyExists(m.exposuresIncludes.value, e => Includes(Exposures(answers), e));
    }
  }

  /** `q1_4_tasks` wins over `exposures` when it is truthy; with neither, no module is included. */
  lemma ExposuresSource(answers: AnswerMap, m: QuestionModule)
    ensures "q1_4_tasks" in answers && Truthy(answers["q1_4_tasks"]) ==> Exposures(answers) == answers["q1_4_tasks"]
    ensures (("q1_4_tasks" !in answers || !Truthy(answers["q1_4_tasks"])) &&
             ("exposures" !in answers || !Truthy(answers["exposures"]))) ==>
      !ModuleIncluded(m, Exposures(answers))
  {
    if m.exposuresIncludes.Some? {
      AnyExists(m.exposuresIncludes.value, e => Includes(Exposures(answers), e));
    }
  }

  /** Unanswered: undefined, the empty string or the empty list. */
  predicate IsEmpty(value: Option<Answer>)
  {
    value == None || value == Some(Text("")) || value == Some(Multi([]))
  }

  /** A question must be answered unless it is explicitly optional; an info screen never must. */
  predicate IsRequired(q: Question)
  {
    q.qtype != Info && q.required != Some(false)
  }

  predicate MustAnswer(q: Question, answers: AnswerMap)
  {
    IsRequired(q) && IsEmpty(Get(answers, q.id))
  }

  /** Without a condition a question is shown; with one, only when the answer is exactly that string. */
  predicate Visible(q: Question, answers: AnswerMap)
  {
    q.showIf.None? || Get(answers, q.showIf.value.question) == Some(Text(q.showIf.value.equals))
  }

  /** The position of the first question with this id. */
  function FindIndex(qs: seq<Question>, id: string): (r: Option<nat>)
    ensures r.Some? ==> r.value < |qs| && qs[r.value].id == id && forall j :: 0 <= j < r.value ==> qs[j].id != id
    ensures r.None? ==> forall j :: 0 <= j < |qs| ==> qs[j].id != id
  {
    FirstIndex(qs, (q: Question) => q.id == id)
  }

  /** The first visible question at or after `i`, or `|qs|` when there is none. */
  function NextVisibleFrom(qs: seq<Question>, answers: AnswerMap, i: nat): (r: nat)
    requires i <= |qs|
    ensures i <= r <= |qs|
    ensures r < |qs| ==> Visible(qs[r], answers)
    ensures forall j :: i <= j < r ==> !Visible(qs[j], answers)
    decreases |qs| - i
  {
    if i == |qs| then |qs|
    else if Visible(qs[i], answers) then i
    else NextVisibleFrom(qs, answers, i + 1)
  }

  /**
   The forward walk as the page runs it, with its loop guard of `length + 5` steps: the guard
   never cuts the walk short, so the loop stops at the first visible question after `curr`.
   */
  method NextVisibleIndex(qs: seq<Question>, answers: AnswerMap, curr: nat) returns (next: nat)
    requires curr < |qs|
    ensures next == NextVisibleFrom(qs, answers, curr + 1)
    ensures curr < next <= |qs|
    ensures next < |qs| ==> Visible(qs[next], answers)
    ensures forall j :: curr < j < next ==> !Visible(qs[j], answers)
  {
    next := curr + 1;
    var loopCount := 0;
    var maxLoops := |qs| + 5;
    while next < |qs| && loopCount < maxLoops
      invariant curr + 1 <= next <= |qs|
      invariant loopCount == next - (curr + 1)
      invariant NextVisibleFrom(qs, answers, next) == NextVisibleFrom(qs, answers, curr + 1)
      invariant forall j :: curr < j < next ==> !Visible(qs[j], answers)
      decreases |qs| - next
    {
      if Visible(qs[next], answers) {
        break;
      }
      next := next + 1;
      loopCount := loopCount + 1;
    }
  }

  /** The current question, looked up by id in the question list. */
  function CurrentIndex(config: Config, st: WizardState): Option<nat>
  {
    if st.current.None? then None else FindIndex(AllQuestions(config, st.answers), st.current.value)
  }

  /** "Siguiente". */
  function HandleNext(config: Config, st: WizardState): (r: NextOutcome)
    ensures r.Ignored? <==> CurrentIndex(config, st).None?
    ensures r.Blocked? <==>
      (CurrentIndex(config, st).Some? &&
       MustAnswer(AllQuestions(config, st.answers)[CurrentIndex(config, st).value], st.answers))
    ensures r.ToReview? ==>
      var qs := AllQuestions(config, st.answers);
      forall j :: CurrentIndex(config, st).value < j < |qs| ==> !Visible(qs[j], st.answers)
    ensures r.Advanced? ==>
      var qs := AllQuestions(config, st.answers);
      var i := CurrentIndex(config, st).value;
      && r.state.answers == st.answers
      && r.state.history == st.history + [st.current.value]
      && exists k :: i < k < |qs| && r.state.current == Some(qs[k].id) && Visible(qs[k], st.answers)
                     && forall j :: i < j < k ==> !Visible(qs[j], st.answers)
  {
    var qs := AllQuestions(config, st.answers);
    match CurrentIndex(config, st)
    case None => Ignored
    case Some(i) =>
      if MustAnswer(qs[i], st.answers) then Blocked
      else
        var next := NextVisibleFrom(qs, st.answers, i + 1);
        if next >= |qs| then ToReview
        else Advanced(st.(history := st.history + [qs[i].id], current := Some(qs[next].id)))
  }

  /** The back arrow. */
  function HandleBack(st: WizardState): (r: BackOutcome)
    ensures r.ToIdentification? <==> st.history == []
    ensures r.Back? ==>
      && r.state.answers == st.answers
      && r.state.current.Some?
      && st.history == r.state.history + [r.state.current.value]
  {
    if |st.history| > 0 then
      Back(st.(history := st.history[..|st.history| - 1], current := Some(st.history[|st.history| - 1])))
    else ToIdentification
  }

  /** Going back right after going forward returns to exactly where the worker was. */
  lemma BackUndoesNext(config: Config, st: WizardState)
    requires HandleNext(config, st).Advanced?
    ensures HandleBack(HandleNext(config, st).state) == Back(st)
  {
    var s' := HandleNext(config, st).state;
    assert s'.history[..|s'.history| - 1] == st.history;
  }

  /** A required question holding a non-empty answer never blocks. */
  lemma AnsweredNeverBlocks(config: Config, st: WizardState, i: nat)
    requires CurrentIndex(config, st) == Some(i)
    requires var q := AllQuestions(config, st.answers)[i];
      q.id in st.answers && (st.answers[q.id].Multi? ==> st.answers[q.id].items != []) && st.answers[q.id] != Text("")
    ensures !HandleNext(config, st).Blocked?
  {
  }

  /** A list answer never satisfies a display condition. */
  lemma ListNeverShows(q: Question, answers: AnswerMap)
    requires q.showIf.Some? && q.showIf.value.question in answers && answers[q.showIf.value.question].Multi?
    ensures !Visible(q, answers)
  {
  }

  /** The page's `Math.round(k / n * 100)` for the k-th of n questions, in exact arithmetic. */
  function Progress(k: nat, n: nat): (p: nat)
    requires 0 < k <= n
  {
    (200 * k + n) / (2 * n)
  }

  lemma DivBracket(x: nat, d: nat)
    requires d > 0
    ensures d * (x / d) <= x < d * (x / d + 1)
  {
  }

  lemma MulMonotone(d: nat, a: nat, b: nat)
    requires a <= b
    ensures d * a <= d * b
  {
  }

  /**
   The progress is 100·k/n rounded to the nearest integer, halves upwards, as `Math.round`
   does; it is at most 100, and 100 exactly from the point where 100·k/n reaches 99.5,
   in particular at the last question.
   */
  lemma ProgressRounds(k: nat, n: nat)
    requires 0 < k <= n
    ensures 2 * Progress(k, n) * n - n <= 200 * k < 2 * Progress(k, n) * n + n
    ensures Progress(k, n) <= 100
    ensures Progress(k, n) == 100 <==> 200 * k >= 199 * n
    ensures k == n ==> Progress(k, n) == 100
  {
    var d, x, p := 2 * n, 200 * k + n, Progress(k, n);
    DivBracket(x, d);
    assert 2 * p * n == d * p;
    assert d * (p + 1) == d * p + d;
    if p > 100 {
      MulMonotone(d, 101, p);
      assert false;
    }
    if p < 100 && 200 * k >= 199 * n {
      MulMonotone(d, p + 1, 100);
      assert false;
    }
  }

  /** A later question never shows less progress. */
  lemma ProgressMonotone(k1: nat, k2: nat, n: nat)
    requires 0 < k1 <= k2 <= n
    ensures Progress(k1, n) <= Progress(k2, n)
  {
    var d, p1, p2 := 2 * n, Progress(k1, n), Progress(k2, n);
    DivBracket(200 * k1 + n, d);
    DivBracket(200 * k2 + n, d);
    if p1 > p2 {
      MulMonotone(d, p2 + 1, p1);
      assert false;
    }
  }

  /** Progress of the current question: 0 when there is none. */
  function ProgressOf(config: Config, st: WizardState): (p: nat)
    ensures p <= 100
    ensures CurrentIndex(config, st).Some? && CurrentIndex(config, st).value == |AllQuestions(config, st.answers)| - 1 ==> p == 100
  {
    match CurrentIndex(config, st)
    case None => 0
    case Some(i) =>
      ProgressRounds(i + 1, |AllQuestions(config, st.answers)|);
      Progress(i + 1, |AllQuestions(config, st.answers)|)
  }

  /** The wizard opens on the first core question, with nothing in the back stack. */
  function Start(config: Config, resumed: AnswerMap): (st: WizardState)
    requires |config.core| > 0
    ensures CurrentIndex(config, st) == Some(0)
    ensures HandleBack(st) == ToIdentification
  {
    AllQuestionsLayout(config, resumed);
    WizardState(resumed, [], Some(config.core[0].id))
  }
}
